=== FILE: README.md ===
# Hotel reservations, numeric utilities and the Markdown converter, in Dafny

This project models the logic of the hotel reservation backend
(`backend/`), its numeric helpers (`src/utils/index.js`, `backend/utils.js`)
and the two Markdown-to-Word scripts (`convert_to_formats.py`,
`simple_converter.py`). It proves properties of that model.

- **NumericUtils** (`numeric_utils.dfy`)
  - Covers `toCelsius`, `toFahrenheit`, `movingAverage` and `sum`.
  - JavaScript numbers are exact reals together with the non-finite values.
  - `Math.round(y)` is `floor(y + 1/2)`.
  - Errors are `Throws(TypeError | RangeError, message)`.
  - `backend/utils.js` repeats the first three functions token for token, changing only parameter names. So one definition serves both files, and the two versions agree on every input by construction.
  - `MovingAverageLoop` is the `for` loop with its `reduce`, and it is proved to compute the specification.
- **Text** (`text.dfy`)
  - Python's `strip`, `split(sep)` and `join`, and JavaScript's `s.length` in UTF-16 units.
  - JavaScript's string `<`, proved to be a strict total order.
- **Hotel, Usuarios, Admin, Auth, Server** (`hotel.dfy`, `usuarios.dfy`, `admin.dfy`, `auth.dfy`, `server.dfy`)
  - The database is an immutable value:
    - users keyed by e-mail;
    - rooms;
    - reservations `(id, usuario_id, habitacion_id, inicio, fin)`;
    - the next `SERIAL` value of each table.
  - Each handler maps a state and a request to a response and a new state.
  - The parameter `fails` stands for the database raising on the request. The handler then answers 500 and the state does not change.
  - bcrypt (`hash`, `compare`), `jwt.sign`, `jwt.verify` and `Math.random` are parameters.
  - SQL `ORDER BY` is a stable insertion sort by a total preorder (`Sorting`).
  - `backend/server.js` also declares direct routes for availability, booking, cancellation, "my reservations" and room types. It mounts the router of `backend/routes/usuarios.js` on `/api` first (`server.js:25`), and that router answers the same paths with the controller's handlers. So the direct routes are never reached, and only the controller is modelled. The two direct routes no router shadows, `/api/ping-simple` and `/api/echo-simple`, are modelled in `Server`.
  - `Hotel.Valid` is the state invariant. It includes "no two reservations of one room overlap". Every handler preserves it, and so does every sequence of requests (`Server.RunPreservesValid`).
- **Markdown** (`markdown.dfy`, `markdown_lemmas.dfy`)
  - The scanning loop of `create_word_document` produces a sequence of blocks in place of a python-docx document.
  - `ScanFrom` is the loop as a recursive definition, following `convert_to_formats.py`.
  - `ScanLoop` is the `while` loop of `simple_converter.py`. It is proved to emit the same blocks, so the two scripts produce the same block sequence for every input.

Dates are ISO `YYYY-MM-DD` strings. The handlers compare them as JavaScript strings and PostgreSQL compares them as `DATE` values. Both are the lexicographic order `Text.StrLt` on such strings.

## Model

| member | source | states |
|---|---|---|
| NumericUtils.MathRound | src/utils/index.js:12 | `Math.round(y)` is an integer in `(y - 1/2, y + 1/2]` |
| NumericUtils.MathRoundUnique | src/utils/index.js:12 | that integer is the only one in the interval, so ties round up |
| NumericUtils.Round1 | src/utils/index.js:26 | the one-decimal rounding is within 0.05 of its argument and is a whole number of tenths |
| NumericUtils.Round2 | src/utils/index.js:65 | the two-decimal rounding is within 0.005 and is a whole number of hundredths |
| NumericUtils.ToCelsius | src/utils/index.js:7-13 | throws TypeError with its message exactly for non-finite input; otherwise returns `(f-32)*5/9` to within 0.05, on the tenths grid |
| NumericUtils.ToFahrenheit | src/utils/index.js:21-27 | throws TypeError exactly for non-finite input; otherwise returns `c*9/5+32` to within 0.05, on the tenths grid |
| NumericUtils.ReferencePoints | src/utils/index.js:11-12 | 32 °F → 0, 212 → 100, -40 → -40, 100 → 37.8; 0 °C → 32, 100 → 212, -40 → -40 |
| NumericUtils.FahrenheitRoundTrip | src/utils/index.js:7-27 | Fahrenheit → Celsius → Fahrenheit returns within 0.14 of the start |
| NumericUtils.CelsiusRoundTrip | src/utils/index.js:21-27 | Celsius → Fahrenheit → Celsius returns within 0.08 of the start |
| NumericUtils.Values | src/utils/index.js:54 | an all-finite series read as numbers, item by item |
| NumericUtils.WindowMeans | src/utils/index.js:60-66 | one mean per window position: `n - w + 1` of them |
| NumericUtils.MovingAverage | src/utils/index.js:37-69 | each error fires exactly when the earlier checks pass and its own fails: not an array (TypeError), window not an integer ≥ 2 (RangeError), window > length (RangeError), a non-finite item (TypeError); otherwise `n - w + 1` entries, entry `i` being the rounded mean of items `i..i+w` |
| NumericUtils.MovingAverageLoop | src/utils/index.js:58-68 | the slice/reduce loop returns exactly those rounded window means |
| NumericUtils.SumOfBounds | src/utils/index.js:62 | a sum of `n` values in `[lo, hi]` lies in `[n·lo, n·hi]` |
| NumericUtils.MeanWithin | src/utils/index.js:63 | the mean of such a window lies in `[lo, hi]` |
| NumericUtils.MovingAverageWithinWindow | src/utils/index.js:60-66 | each moving-average entry lies within half a hundredth of the range of its window |
| NumericUtils.Sum | backend/utils.js:46-51 | TypeError exactly when an argument is non-finite; otherwise `a + b`, with 0 a right identity |
| Text.JsLength | backend/controllers/usuariosController.js:14 | `.length` lies between the character count and twice it |
| Text.JsLengthAppend | backend/controllers/usuariosController.js:14 | `.length` of a concatenation is the sum of the lengths |
| Text.JsLengthChar | backend/controllers/usuariosController.js:14 | one character counts one UTF-16 unit, or two above U+FFFF; with JsLengthAppend this fixes `.length` of every string |
| Text.TrimEndSpec | convert_to_formats.py:58 | `rstrip` keeps a prefix, drops only whitespace, and ends in non-whitespace |
| Text.LeadingSpaceSpec | convert_to_formats.py:58 | the leading run of whitespace is maximal |
| Text.StripSpec | convert_to_formats.py:58 | `strip()` keeps the slice between the leading and trailing whitespace runs, and it begins and ends with non-whitespace |
| Text.StripNoop | convert_to_formats.py:58 | a string without whitespace at either end is its own strip |
| Text.StripIdempotent | convert_to_formats.py:93 | stripping twice is stripping once |
| Text.IndexOf | backend/middleware/auth.js:4 | the first occurrence of a character |
| Text.IndexOfFirst | backend/middleware/auth.js:4 | an occurrence with none before it is the first |
| Text.Count | backend/middleware/auth.js:4 | the number of occurrences; zero exactly when absent |
| Text.CountAppend | backend/controllers/usuariosController.js:11 | occurrences of a concatenation add up |
| Text.Split | convert_to_formats.py:54 | `split(sep)` yields one more piece than separators, none containing the separator |
| Text.JoinSplit | convert_to_formats.py:54 | joining the pieces of a split restores the string |
| Text.SplitJoin | backend/middleware/auth.js:4 | splitting a join of separator-free pieces restores the pieces |
| Text.SplitCons | backend/middleware/auth.js:4 | a separator-free first piece splits off first |
| Text.StrLtIrreflexive | backend/controllers/usuariosController.js:106 | no string is below itself |
| Text.StrLtTransitive | backend/controllers/usuariosController.js:106 | string `<` is transitive |
| Text.StrLtTrichotomy | backend/controllers/usuariosController.js:106 | any two strings are equal or ordered one way |
| Text.StrLeTotalOrder | backend/controllers/usuariosController.js:106 | string `<=` is reflexive, total, antisymmetric and transitive |
| Sorting.Insert | backend/controllers/usuariosController.js:124 | inserting into a sorted sequence gives a sorted sequence with one more occurrence of the element |
| Sorting.HeadPrecedesInsert | backend/controllers/usuariosController.js:124 | the head stays in front of everything inserted behind it |
| Sorting.SortBy | backend/controllers/usuariosController.js:124 | `ORDER BY` yields a sorted permutation of the selected rows |
| Sorting.SortByMembers | backend/controllers/usuariosController.js:189 | sorting neither adds nor loses rows |
| Hotel.OverlapMeansSharedNight | backend/controllers/usuariosController.js:139 | `NOT (fin <= inicio OR inicio >= fin)` holds exactly when the two stays share a night |
| Hotel.LtAfterLe | backend/controllers/usuariosController.js:139 | `a <= b < c` gives `a < c` on strings |
| Hotel.OverlapSymmetric | backend/controllers/usuariosController.js:139 | overlap does not depend on which stay is asked about |
| Hotel.BackToBackStaysDoNotOverlap | backend/controllers/usuariosController.js:139 | a stay starting on the day another ends does not overlap it |
| Hotel.ValidMeansNoOverlap | backend/controllers/usuariosController.js:138-149 | in a valid state, reservations of one room never overlap |
| Hotel.SeededValid | backend/scripts/init-db.js:93-105 | the database the basic schema script leaves, five rooms and no users or reservations, is valid |
| Hotel.FilterReservas | backend/controllers/usuariosController.js:166 | `DELETE ... WHERE` keeps exactly the rows `keep` accepts; nothing is lost exactly when every row is accepted; distinct ids stay distinct |
| Hotel.HeadIdFresh | backend/controllers/usuariosController.js:166 | with distinct ids, the first row's id is not among the rest |
| Usuarios.EmailOkMatchesRegex | backend/controllers/usuariosController.js:11 | the direct reading of the e-mail check accepts exactly the strings `/^[^@\s]+@[^@\s]+\.[^@\s]+$/` matches |
| Usuarios.RegexGivesEmailOk | backend/controllers/usuariosController.js:11 | a regular-expression match passes the direct check |
| Usuarios.EmailOkGivesRegex | backend/controllers/usuariosController.js:11 | the direct check passing gives a regular-expression match |
| Usuarios.CountOne | backend/controllers/usuariosController.js:11 | a character occurring once does not occur before or after that place |
| Usuarios.CountNone | backend/controllers/usuariosController.js:11 | a string without a character counts it zero times |
| Usuarios.ValidateRegistro | backend/controllers/usuariosController.js:8-25 | each of the six 400 messages is returned exactly when every earlier check passes and its own fails; nothing is returned exactly when all pass |
| Usuarios.SegmentsMakeAddress | backend/controllers/usuariosController.js:11 | `a@b.c` with whitespace-free, `@`-free non-empty parts is accepted |
| Usuarios.TestAddressIsWellFormed | backend/controllers/usuariosController.test.js:32 | the tests' address `juan@test.com` is accepted |
| Usuarios.AsciiLength | backend/controllers/usuariosController.js:14 | an ASCII string's `.length` is its character count |
| Usuarios.AcceptedPasswordFacts | backend/controllers/usuariosController.js:14-22 | `Test123!` is long enough and has a lowercase letter and a special character |
| Usuarios.AlphanumericPasswordFacts | backend/controllers/usuariosController.js:20 | `Test123` has no special character |
| Usuarios.UppercasePasswordFacts | backend/controllers/usuariosController.js:17 | `TEST123!` has no lowercase letter |
| Usuarios.AcceptedRegistro | backend/controllers/usuariosController.test.js:29-46 | the tests' accepted registration passes validation |
| Usuarios.MissingPasswordRejected | backend/controllers/usuariosController.test.js:85-100 | no passwords: "Todos los campos son obligatorios." |
| Usuarios.ShortPasswordRejected | backend/controllers/usuariosController.test.js:118-133 | `123` is too short |
| Usuarios.UppercasePasswordRejected | backend/controllers/usuariosController.test.js:135-150 | `TEST123!` lacks a lowercase letter |
| Usuarios.AlphanumericPasswordRejected | backend/controllers/usuariosController.test.js:152-167 | `Test123` lacks a special character |
| Usuarios.MismatchRejected | backend/controllers/usuariosController.test.js:68-83 | different confirmation: "Las contraseñas no coinciden." |
| Usuarios.MalformedAddressRejected | backend/controllers/usuariosController.test.js:101-116 | `invalid-email` is rejected as badly formed |
| Usuarios.Registro | backend/controllers/usuariosController.js:5-41 | a validation failure or a known address answers 400 and a database error 500, each changing nothing; success adds exactly one user holding `hash(contrasena)` and the default role; validity is preserved |
| Usuarios.Login | backend/controllers/usuariosController.js:43-98 | 200 exactly when both fields are present and `compare` accepts the stored hash, with the user's claims and their signed token; a missing field answers 400, a database error 500, every other request 401 |
| Usuarios.UnknownEmailLooksLikeWrongPassword | backend/controllers/usuariosController.js:79-89 | an unknown address and a wrong password get identical 401 answers |
| Usuarios.RegisterThenLogin | backend/controllers/usuariosController.js:33-78 | after a successful registration the same credentials log in, as the new user |
| Usuarios.CheckDates | backend/controllers/usuariosController.js:103-108 | missing dates, then `fin <= inicio`, each with its message; nothing exactly when both are present and ordered |
| Usuarios.Candidates | backend/controllers/usuariosController.js:120-123 | the type filter selects exactly the rooms of the given type, or all rooms when no type is given |
| Usuarios.RoomOrderTotal | backend/controllers/usuariosController.js:124 | `ORDER BY tipo, precio, numero` is a total preorder |
| Usuarios.Tag | backend/controllers/usuariosController.js:112-118 | each candidate gets `disponible` true exactly when no reservation of it overlaps |
| Usuarios.Availability | backend/controllers/usuariosController.js:112-126 | the listing is sorted, lists every selected room, and every row is a selected room with the right `disponible` |
| Usuarios.AvailableMeansBookable | backend/controllers/usuariosController.js:222-226 | `disponible` holds exactly when no reservation of that room overlaps `[inicio, fin)` |
| Usuarios.TypeFilter | backend/controllers/usuariosController.js:228-232 | no type lists every room; a type lists only rooms of that type |
| Usuarios.HabitacionesDisponibles | backend/controllers/usuariosController.js:209-241 | the date checks answer first; then 500 on a database error, or 200 with the listing |
| Usuarios.Reservar | backend/controllers/usuariosController.js:100-157 | the dates are checked before the action; 'consultar' searches; 'reservar' needs a room, refuses an overlapping stay with 400, and otherwise inserts exactly one reservation; any other action is "Acción no válida."; only a booking changes the state; validity is preserved |
| Usuarios.BookingKeepsValid | backend/controllers/usuariosController.js:138-149 | checking for an overlap before inserting keeps every room free of double bookings |
| Usuarios.BackToBackBookingAccepted | backend/controllers/usuariosController.js:139 | a stay starting when the room's other stays have ended is booked |
| Usuarios.Cancelar | backend/controllers/usuariosController.js:159-175 | both ids are required; 200 exactly when a reservation with that id belongs to that user; exactly those rows are deleted; otherwise 404 and no change |
| Usuarios.CancelOnlyOwn | backend/controllers/usuariosController.js:166 | a reservation not matching both ids survives every cancellation request |
| Usuarios.RoomById | backend/controllers/usuariosController.js:187 | the join finds the room with that id, or none exists |
| Usuarios.UserRows | backend/controllers/usuariosController.js:183-191 | every row is one of the user's reservations from the scanned table joined with its room, every such reservation with an existing room is listed, and with distinct reservation ids none is listed twice |
| Usuarios.PermutationKeepsDistinct | backend/controllers/usuariosController.js:189 | reordering the rows by `ORDER BY` keeps each reservation listed at most once |
| Usuarios.LaterFirstTotal | backend/controllers/usuariosController.js:189 | `ORDER BY fecha_inicio DESC` is a total preorder |
| Usuarios.MisReservas | backend/controllers/usuariosController.js:177-196 | 400 without a user id, 500 on a database error; otherwise only that user's reservations, each with its room, latest start first, all of them listed, and in a valid state each exactly once |
| Admin.CancelarReservaAdmin | backend/controllers/adminController.js:50-65 | 400 without an id; 200 exactly when a reservation has that id, whoever owns it; exactly that row goes; otherwise 404 and no change |
| Admin.AdminCancelIgnoresOwner | backend/controllers/adminController.js:56 | any user's reservation can be cancelled by id |
| Admin.CrearHabitacion | backend/controllers/adminController.js:76-90 | 400 unless `numero`, `tipo` and `precio` are present; otherwise exactly one room is added, holding the request's columns |
| Admin.UpdateRooms | backend/controllers/adminController.js:99-102 | `UPDATE ... WHERE id = $7` rewrites the rows with that id and leaves the rest alone |
| Admin.EditarHabitacion | backend/controllers/adminController.js:92-107 | the same 400 check; otherwise 200, and only the room with the path id changes |
| Admin.EditUnknownRoomChangesNothing | backend/controllers/adminController.js:99-103 | editing an id no room has answers 200 and changes nothing |
| Admin.EliminarHabitacionAsWritten | backend/controllers/adminController.js:109-117 | as written, always 500 with its message and no change |
| Admin.DropRoom | backend/controllers/adminController.js:112 | `DELETE ... WHERE id` keeps exactly the other rooms; nothing goes iff no room has the id; ids stay distinct |
| Admin.EliminarHabitacion | backend/controllers/adminController.test.js:316-350 | the deletion the tests expect: 500 on a database error, 404 and no change when no room has the id, 200 iff the room exists and no reservation references it, then exactly that room goes; validity preserved |
| Admin.RoomDeletionLost | backend/controllers/adminController.js:112 | on the seeded database, deleting room 1 answers 500 as written, but 200 with the room gone as the tests expect |
| Admin.DisponibilidadHabitaciones | backend/controllers/adminController.js:119-140 | 400 "Fechas inválidas." exactly when a date is missing or `fin <= inicio`; otherwise 500 |
| Admin.AdminExcludesIsOverlap | backend/controllers/adminController.js:128-132 | for a stay that ends after it starts, the admin exclusion predicate is the user-facing overlap |
| Auth.ExtractToken | backend/middleware/auth.js:4-5 | a token exactly when the header has a space and a non-empty second piece, and it is that piece |
| Auth.Authenticate | backend/middleware/auth.js:3-14 | no token gives 401 "Token requerido."; `next` with the decoded claims exactly when `verify` accepts the token; a token `verify` refuses gives 401 "Token inválido o expirado."; every refusal is 401 |
| Auth.NoHeaderRejected | backend/middleware/auth.js:4-7 | without the header, 401 before `verify` is consulted |
| Auth.TokenAfterFirstSpace | backend/middleware/auth.js:4 | the token is the piece after the first space, whatever the scheme and whatever follows |
| Auth.BearerHeader | backend/middleware/auth.js:4 | `Bearer <token>` yields the token |
| Auth.NoSpaceMeansNoToken | backend/middleware/auth.js:4-7 | a header without a space counts as no token |
| Auth.DoubleSpaceMeansNoToken | backend/middleware/auth.js:4-7 | two spaces after the scheme leave an empty piece: no token |
| Auth.SignedTokenAccepted | backend/middleware/auth.js:8-11 | a token signed at login passes with the same claims when `verify` inverts `sign` |
| Auth.RefusedTokenRejected | backend/middleware/auth.js:12-14 | a bearer token `verify` refuses gets 401 "Token inválido o expirado." |
| Server.PingSimple | backend/server.js:195-199 | `delayMs` is an integer in [0, 499], the floor of `random * 500` |
| Server.EveryDelayPossible | backend/server.js:196 | every delay from 0 to 499 can occur |
| Server.EchoSimple | backend/server.js:306-308 | the body comes back, or null when absent |
| Server.Handle | backend/routes/admin.js:13-21 | every state-changing route preserves validity; a database error changes nothing; only booking and cancelling touch reservations, only room creation, edits and deletions touch rooms, only registration touches users |
| Server.Run | backend/routes/usuarios.js:7-16 | one response per request |
| Server.RunPreservesValid | backend/controllers/usuariosController.js:138-149 | every sequence of requests, served one at a time from a valid state, leaves a valid state |
| Server.NoDoubleBookingEver | backend/controllers/usuariosController.js:133-150 | from the database the schema script seeds, no sequence of requests books one room twice for one night |
| Markdown.BoldText | convert_to_formats.py:129 | `line[2:-2]`: the inside between the two-character ends, or empty for short lines |
| Markdown.TableEnd | convert_to_formats.py:80-82 | the end of the maximal run of table lines |
| Markdown.FenceEnd | convert_to_formats.py:103-105 | the next fence line, or the end of the input |
| Markdown.RowCells | convert_to_formats.py:93-96 | a row has exactly as many cells as the table has columns |
| Markdown.Columns | convert_to_formats.py:87 | the column count is the number of bars in the first line, less one |
| Markdown.MakeTable | convert_to_formats.py:86-96 | one row per table line, each with one cell per bar of the first line, less one |
| Markdown.HeadingBlock | convert_to_formats.py:60-75 | a heading line gives a title, subtitle or header |
| Markdown.TableStep | convert_to_formats.py:77-98 | the table branch moves past the current line and emits at most one block |
| Markdown.FenceStep | convert_to_formats.py:100-110 | the code branch moves past the opening fence and emits at most one block |
| Markdown.LineBlocks | convert_to_formats.py:112-141 | the remaining branches emit at most one block |
| Markdown.Step | convert_to_formats.py:57-143 | every iteration strictly advances the index, by at most one past the end, and emits at most one block |
| Markdown.ScanFrom | convert_to_formats.py:57-143 | the loop terminates with no more blocks than remaining lines |
| Markdown.Convert | convert_to_formats.py:54-143 | a file yields at most one block per line |
| Markdown.ConvertAsWritten | convert_to_formats.py:127-131 | an empty bold paragraph anywhere means no document; a written document is `Convert`'s blocks |
| Markdown.ScanLoop | simple_converter.py:51-139 | the imperative loop emits exactly the blocks of the recursive definition: both scripts agree on every input |
| Markdown.LoopBody | simple_converter.py:55-139 | one pass of the loop body is one step of the recursive definition |
| Markdown.LineBranches | simple_converter.py:109-137 | the `elif` chain from the bullet test on is LineBlocks |
| Markdown.TableLoop | simple_converter.py:75-78 | the inner table loop collects the stripped run and stops where TableEnd does |
| Markdown.FenceLoop | simple_converter.py:98-102 | the inner code loop collects the unstripped lines and stops where FenceEnd does |
| MarkdownLemmas.PrefixedStripped | convert_to_formats.py:58 | a visible prefix followed by trimmed text is its own strip |
| MarkdownLemmas.ScanFromStep | convert_to_formats.py:57-143 | the blocks of a step come first, and the loop resumes where the step left off |
| MarkdownLemmas.HeadingLines | convert_to_formats.py:58-75 | a line that strips to `# x`, `## x` or `### x` gives a Title, Subtitle or Header holding exactly `x`, whatever its indentation |
| MarkdownLemmas.PlainLineStep | simple_converter.py:55-139 | a line opening with none of `#`, `|`, a backtick reaches the later branches |
| MarkdownLemmas.ListLines | simple_converter.py:109-121 | `- x` and `* x` give a bullet, `1. x` a numbered item, both holding `x`; `---` gives the rule |
| MarkdownLemmas.BoldLine | convert_to_formats.py:127-131 | `**x**` gives a bold paragraph holding exactly `x`, for every `x` |
| MarkdownLemmas.EmojiLine | simple_converter.py:129-132 | a line opening with ✅ or ❌ gives a paragraph of the stripped rest |
| MarkdownLemmas.SkippedLines | convert_to_formats.py:138-141 | a line adds nothing exactly when it is empty or opens with `[` or `![` |
| MarkdownLemmas.TableRun | convert_to_formats.py:77-98 | a maximal run of table lines is consumed whole; a lone table line emits nothing; two or more give one table with one row per line, each as wide as the first line |
| MarkdownLemmas.TableLineStep | convert_to_formats.py:77 | a table line is handled by the table branch |
| MarkdownLemmas.TableEndIs | convert_to_formats.py:80-82 | the inner loop stops exactly at the end of the run |
| MarkdownLemmas.JoinEmptyLast | convert_to_formats.py:93 | a trailing separator is an empty last piece |
| MarkdownLemmas.RowCellsRoundTrip | convert_to_formats.py:93-96 | a row written from stripped, bar-free cells gives those cells back |
| MarkdownLemmas.RowCellsFit | convert_to_formats.py:91-96 | a row `|c1|...|cn|`, cells padded or not, reads back as its stripped cells; in a table of `cols` columns, cells past the last column are dropped and missing cells stay empty |
| MarkdownLemmas.PaddedCells | convert_to_formats.py:93-96 | cell `c` is the stripped inner piece `c + 1`, or empty past the last piece |
| MarkdownLemmas.WrittenTable | convert_to_formats.py:84-96 | a table written row by row has its first row's width, and every row reads back as its stripped cells, cut or filled to that width |
| MarkdownLemmas.RowPieces | convert_to_formats.py:93 | a written row splits into an empty piece, its cells, and an empty piece |
| MarkdownLemmas.RowIsPaddedJoin | convert_to_formats.py:93 | the bars around a row are the join with empty outer pieces |
| MarkdownLemmas.PaddedHasNoBar | convert_to_formats.py:93 | the padded cells have no bar |
| MarkdownLemmas.FenceRun | convert_to_formats.py:100-110 | a fenced block is the unstripped lines up to the next fence, joined with newlines; the closing fence is skipped; an unterminated fence takes the rest of the file; an empty block emits nothing |
| MarkdownLemmas.FenceLineStep | convert_to_formats.py:100 | a fence line is handled by the code branch |
| MarkdownLemmas.FenceEndIs | convert_to_formats.py:103-105 | the inner loop stops exactly at the next fence |
| MarkdownLemmas.OneLineFile | convert_to_formats.py:54 | text without a newline is a single line |
| MarkdownLemmas.BoldFile | convert_to_formats.py:127-131 | the one-line file `**x**` converts to the single bold block `x`, the empty one included |
| MarkdownLemmas.EmptyBoldLines | convert_to_formats.py:127-131 | a line gives an empty bold paragraph exactly when it is `**`, `***` or `****` |
| MarkdownLemmas.ReachedBlocks | convert_to_formats.py:57-143 | the blocks of every iteration the loop reaches are among the file's blocks |
| MarkdownLemmas.EmptyBoldLineFails | convert_to_formats.py:180-184 | a file in which the loop reaches a line stripping to `**`, `***` or `****` writes no document |
| MarkdownLemmas.EmptyBoldCrashes | simple_converter.py:123-127 | `****` converts to one empty bold block, while the scripts as written write no document |

## Left out

- Database I/O is left out: connection pools, SQL text, `init-db`, `test-db` and the schema script. The database is the abstract value `Hotel.Db`.
- `fails` stands for every query of a request raising. A handler whose first query succeeds and whose later query fails is not modelled separately. Its answer is the same 500, and the model keeps the state unchanged.
- Schema constraints are not modelled: foreign keys, `NOT NULL`, unique e-mail. Reservation rows keep whatever `usuario_id` the request carried.
- The controller reads `tipo` and `precio` from `habitaciones`, while the basic schema script gives rooms a `tipo_id` into `tipos_habitacion`. `Hotel.Seeded` puts each seeded room's type name and price on the room. The `estado` and `capacidad` columns are not modelled.
- The direct routes of `backend/server.js` for availability, booking, cancellation, "my reservations" and room types are left out, because the router mounted at `server.js:25` answers those paths first.
- Request fields are typed as strings, numbers or ids as the handlers use them. A non-numeric id is a database error (`fails`).
- Ids and prices that JavaScript treats as falsy (0, "") count as missing, through `Http.PresentId` and `Http.PresentAmount`.
- Collation: strings are compared by code point, and ISO dates are assumed well formed.
- Reservations run one at a time. The check-then-insert of a booking is not atomic in the source, and concurrent requests are not modelled.
- IEEE doubles are exact reals. `NumericUtils.FahrenheitRoundTrip`, `NumericUtils.CelsiusRoundTrip` and the reference points hold for exact arithmetic.
- `Math.random`, bcrypt, `jwt.sign` and `jwt.verify` are parameters. The `setTimeout` delay of `/api/ping-simple` is left out.
- The read-only listings are left out: `getStats`, `getProximasReservas`, `listarReservas` and `listarHabitaciones` in `adminController.js`, and `obtenerTiposHabitacion`. They only select rows.
- Express routing, the logging middleware, `init-db`/`test-db`, the Angular frontend and the k6 load tests are left out.
- python-docx styles, fonts, sizes and alignment are not modelled; the document is the block sequence. `create_pdf_from_word` and `main`'s file handling are not modelled.
- Markdown.ConvertAsWritten: of the exceptions `main` catches (`convert_to_formats.py:180-184`), only the IndexError of an empty bold paragraph is modelled. Unreadable or missing files and python-docx refusing text, such as lxml's ValueError on control characters in a paragraph, also leave no document. So `Written` does not promise that a document is written.
- Usuarios.MisReservas: the listed rows carry the whole reservation and room. The exact column selection is not modelled, nor is the order among equal start dates, which SQL leaves unspecified.
- Usuarios.Availability: ties in `ORDER BY tipo, precio, numero` keep table order. SQL leaves their order unspecified, so only sortedness is promised.
- Admin.DisponibilidadHabitaciones calls an undeclared `db` in the source, and its own `catch` turns the ReferenceError into 500, so it is modelled as written: 400 or 500. The listing its tests expect is not modelled; its exclusion predicate is modelled on its own (`Admin.AdminExcludes`). The same defect in `eliminarHabitacion` is under "## Findings".
- The foreign key of `reservas.habitacion_id` (backend/scripts/init-db.js:85) is modelled in Admin.EliminarHabitacion as the `DELETE` raising while a reservation names the room; the source's unreachable success text "Habitación eliminada." is replaced by the tests' "Habitación eliminada correctamente.".

## Findings

| source | as written | input that shows it | evidently intended | confidence | as-written member | corrected member |
|---|---|---|---|---|---|---|
| convert_to_formats.py:127-131 | a bold line whose inside is empty adds a paragraph with no run, then reads `p.runs[0]`; the IndexError reaches `main`, which prints it and writes no document (the same code is at simple_converter.py:123-127) | a Markdown file containing the line `****` (or `**`, `***`) outside a table or code block | an empty bold paragraph, and the rest of the document written | medium, not executed | Markdown.ConvertAsWritten (MarkdownLemmas.EmptyBoldCrashes) | Markdown.Convert (MarkdownLemmas.BoldFile) |
| backend/controllers/adminController.js:109-117 | `eliminarHabitacion` queries through `db`, which the file never declares; the ReferenceError is caught and every deletion answers 500 "Error al eliminar la habitación." with nothing deleted (the success message would also differ from the tests') | `DELETE /api/admin/habitaciones/1` on the seeded database | delete through `pool`: 200 "Habitación eliminada correctamente." when the room goes, 404 "Habitación no encontrada." when none has the id, as adminController.test.js:316-350 expects | high, not executed | Admin.EliminarHabitacionAsWritten (Admin.RoomDeletionLost) | Admin.EliminarHabitacion |

=== FILE: admin.dfy ===
/**
  The administrator handlers of backend/controllers/adminController.js that
  change or check state: cancelling any reservation, creating and editing
  rooms, deleting a room and the availability check. These handlers answer
  `{ mensaje }` without `claseMensaje` (Hotel.Plain).

  `eliminarHabitacion` and the query of `disponibilidadHabitaciones` call an
  undeclared `db`; the ReferenceError is caught by their own `catch`, so they
  can only answer 500. `EliminarHabitacionAsWritten` models that; the
  deletion its tests expect is `EliminarHabitacion`, which the server uses.
 */
module Admin {
  import opened Text
  import opened Http
  import opened Hotel

  // ---------------------------------------------------------------------
  // Cancelling a reservation
  // ---------------------------------------------------------------------

  const MissingReserva := "Falta el ID de la reserva."
  const Cancelled := "Reserva cancelada correctamente."
  const NotFound := "Reserva no encontrada."
  const CancelError := "Error al cancelar la reserva."

  /**
    `cancelarReservaAdmin`: deletes the reservation with that id whoever owns
    it; 404 when there is none; every other reservation stays.
   */
  function CancelarReservaAdmin(db: Db, reservaId: Option<nat>, fails: bool): (res: (Response, Db))
    ensures !PresentId(reservaId) ==> res == (Plain(400, MissingReserva), db)
    ensures PresentId(reservaId) && fails ==> res == (Plain(500, CancelError), db)
    ensures PresentId(reservaId) && !fails ==>
      && (res.0 == Plain(200, Cancelled) <==>
          exists k :: 0 <= k < |db.reservas| && db.reservas[k].id == reservaId.value)
      && (res.0 != Plain(200, Cancelled) ==> res == (Plain(404, NotFound), db))
      && (forall r :: r in res.1.reservas <==> r in db.reservas && r.id != reservaId.value)
    ensures res.1 == db.(reservas := res.1.reservas)
    ensures Valid(db) ==> Valid(res.1)
  {
    if !PresentId(reservaId) then (Plain(400, MissingReserva), db)
    else if fails then (Plain(500, CancelError), db)
    else
      var id := reservaId.value;
      var kept := FilterReservas(db.reservas, (r: Reservation) => r.id != id);
      if |kept| < |db.reservas| then (Plain(200, Cancelled), db.(reservas := kept))
      else (Plain(404, NotFound), db)
  }

  /** Unlike the user-facing cancellation, the owner plays no part. */
  lemma AdminCancelIgnoresOwner(db: Db, k: nat)
    requires k < |db.reservas| && db.reservas[k].id != 0
    ensures var res := CancelarReservaAdmin(db, Some(db.reservas[k].id), false);
      res.0 == Plain(200, Cancelled) && db.reservas[k] !in res.1.reservas
  {
  }

  // ---------------------------------------------------------------------
  // Creating and editing rooms
  // ---------------------------------------------------------------------

  const RoomFieldsRequired := "El número, tipo y precio son obligatorios."
  const RoomCreated := "Habitación creada correctamente."
  const RoomCreateError := "Error al crear la habitación."
  const RoomUpdated := "Habitación actualizada correctamente."
  const RoomUpdateError := "Error al actualizar la habitación."

  /** The body of a create or edit request. */
  datatype RoomRequest = RoomRequest(
    numero: Option<string>,
    tipo: Option<string>,
    precio: Option<real>,
    descripcion: Option<string>,
    servicios: Option<string>,
    imagen: Option<string>)

  /** `numero`, `tipo` and `precio` all pass `!x`. */
  predicate RoomFieldsOk(req: RoomRequest) {
    Present(req.numero) && Present(req.tipo) && PresentAmount(req.precio)
  }

  /** The row the request describes, under the given id. */
  function RoomOf(id: nat, req: RoomRequest): Room
    requires RoomFieldsOk(req)
  {
    Room(id, req.numero.value, req.tipo.value, req.precio.value, req.descripcion, req.servicios, req.imagen)
  }

  /** `crearHabitacion`: one new room, under the next id, holding the request's columns. */
  function CrearHabitacion(db: Db, req: RoomRequest, fails: bool): (res: (Response, Db))
    ensures !RoomFieldsOk(req) ==> res == (Plain(400, RoomFieldsRequired), db)
    ensures RoomFieldsOk(req) && fails ==> res == (Plain(500, RoomCreateError), db)
    ensures RoomFieldsOk(req) && !fails ==>
      && res.0 == Plain(200, RoomCreated)
      && res.1 == db.(rooms := db.rooms + [RoomOf(db.nextRoomId, req)], nextRoomId := db.nextRoomId + 1)
      && |res.1.rooms| == |db.rooms| + 1
    ensures Valid(db) ==> Valid(res.1)
  {
    if !RoomFieldsOk(req) then (Plain(400, RoomFieldsRequired), db)
    else if fails then (Plain(500, RoomCreateError), db)
    else
      var db' := db.(rooms := db.rooms + [RoomOf(db.nextRoomId, req)], nextRoomId := db.nextRoomId + 1);
      assert Valid(db) ==> UniqueRoomIds(db'.rooms) by {
        if Valid(db) {
          forall i, j | 0 <= i < j < |db'.rooms|
            ensures db'.rooms[i].id != db'.rooms[j].id
          {
            if j == |db.rooms| {
              assert db'.rooms[i] == db.rooms[i];
            }
          }
        }
      }
      (Plain(200, RoomCreated), db')
  }

  /** `UPDATE habitaciones SET ... WHERE id = $7` on a sequence of rows. */
  function UpdateRooms(rooms: seq<Room>, id: nat, req: RoomRequest): (r: seq<Room>)
    requires RoomFieldsOk(req)
    ensures |r| == |rooms|
    ensures forall k :: 0 <= k < |rooms| ==>
      r[k] == (if rooms[k].id == id then RoomOf(id, req) else rooms[k])
  {
    if |rooms| == 0 then []
    else [if rooms[0].id == id then RoomOf(id, req) else rooms[0]] + UpdateRooms(rooms[1..], id, req)
  }

  /**
    `editarHabitacion`: only the room whose id equals the path id takes the
    request's columns; the answer is 200 even when no room has that id.
   */
  function EditarHabitacion(db: Db, id: nat, req: RoomRequest, fails: bool): (res: (Response, Db))
    ensures !RoomFieldsOk(req) ==> res == (Plain(400, RoomFieldsRequired), db)
    ensures RoomFieldsOk(req) && fails ==> res == (Plain(500, RoomUpdateError), db)
    ensures RoomFieldsOk(req) && !fails ==>
      && res.0 == Plain(200, RoomUpdated)
      && |res.1.rooms| == |db.rooms|
      && (forall k :: 0 <= k < |db.rooms| && db.rooms[k].id != id ==> res.1.rooms[k] == db.rooms[k])
      && (forall k :: 0 <= k < |db.rooms| && db.rooms[k].id == id ==> res.1.rooms[k] == RoomOf(id, req))
    ensures res.1 == db.(rooms := res.1.rooms)
    ensures Valid(db) ==> Valid(res.1)
  {
    if !RoomFieldsOk(req) then (Plain(400, RoomFieldsRequired), db)
    else if fails then (Plain(500, RoomUpdateError), db)
    else (Plain(200, RoomUpdated), db.(rooms := UpdateRooms(db.rooms, id, req)))
  }

  /** Editing a room id no room has answers 200 and changes nothing. */
  lemma EditUnknownRoomChangesNothing(db: Db, id: nat, req: RoomRequest)
    requires RoomFieldsOk(req)
    requires forall k :: 0 <= k < |db.rooms| ==> db.rooms[k].id != id
    ensures EditarHabitacion(db, id, req, false) == (Plain(200, RoomUpdated), db)
  {
    assert UpdateRooms(db.rooms, id, req) == db.rooms;
  }

  // ---------------------------------------------------------------------
  // Deleting a room and the availability check
  // ---------------------------------------------------------------------

  const RoomDeleteError := "Error al eliminar la habitación."
  const BadDates := "Fechas inválidas."
  const AvailabilityError := "Error al consultar disponibilidad."

  /** `eliminarHabitacion` as written: the undeclared `db` throws inside the `try`, so it always answers 500. */
  function EliminarHabitacionAsWritten(db: Db, id: nat): (res: (Response, Db))
    ensures res.0.status == 500 && res.0 == Plain(500, RoomDeleteError)
    ensures res.1 == db
  {
    (Plain(500, RoomDeleteError), db)
  }

  const RoomDeleted := "Habitación eliminada correctamente."
  const RoomNotFound := "Habitación no encontrada."

  /** The rooms whose id is not `id`, in table order: `DELETE FROM habitaciones WHERE id = $1`. */
  function DropRoom(rooms: seq<Room>, id: nat): (r: seq<Room>)
    ensures forall x :: x in r <==> x in rooms && x.id != id
    ensures |r| <= |rooms|
    ensures |r| == |rooms| <==> forall k :: 0 <= k < |rooms| ==> rooms[k].id != id
    ensures UniqueRoomIds(rooms) ==> UniqueRoomIds(r)
  {
    if |rooms| == 0 then []
    else
      var rest := DropRoom(rooms[1..], id);
      assert forall x :: x in rooms <==> x == rooms[0] || x in rooms[1..];
      if rooms[0].id != id then
        HeadRoomFresh(rooms, rest);
        [rooms[0]] + rest
      else
        rest
  }

  /** With distinct ids, the head room's id is none of the ids among the rest. */
  lemma HeadRoomFresh(rooms: seq<Room>, rest: seq<Room>)
    requires |rooms| > 0
    requires forall x :: x in rest ==> x in rooms[1..]
    ensures UniqueRoomIds(rooms) ==> forall k :: 0 <= k < |rest| ==> rest[k].id != rooms[0].id
  {
    if UniqueRoomIds(rooms) {
      forall k | 0 <= k < |rest|
        ensures rest[k].id != rooms[0].id
      {
        assert rest[k] in rooms[1..];
        var m :| 0 <= m < |rooms[1..]| && rooms[1..][m] == rest[k];
        assert rooms[m + 1] == rest[k];
      }
    }
  }

  /**
    `eliminarHabitacion` with `pool` in place of the undeclared `db`, answering
    as its tests expect: 200 when the room with that id is deleted, 404 when
    there is none. `reservas.habitacion_id` references the room
    (backend/scripts/init-db.js:85), so while a reservation still names it the `DELETE`
    raises and the `catch` answers 500.
   */
  function EliminarHabitacion(db: Db, id: nat, fails: bool): (res: (Response, Db))
    ensures fails ==> res == (Plain(500, RoomDeleteError), db)
    ensures !fails && (forall k :: 0 <= k < |db.rooms| ==> db.rooms[k].id != id) ==>
      res == (Plain(404, RoomNotFound), db)
    ensures res.0 == Plain(200, RoomDeleted) <==>
      && !fails
      && (exists k :: 0 <= k < |db.rooms| && db.rooms[k].id == id)
      && (forall r :: r in db.reservas ==> r.habitacionId != id)
    ensures res.0 == Plain(200, RoomDeleted) ==> forall x :: x in res.1.rooms <==> x in db.rooms && x.id != id
    ensures res.0 != Plain(200, RoomDeleted) ==> res.1 == db
    ensures res.1 == db.(rooms := res.1.rooms)
    ensures Valid(db) ==> Valid(res.1)
  {
    if fails then (Plain(500, RoomDeleteError), db)
    else
      var kept := DropRoom(db.rooms, id);
      if |kept| == |db.rooms| then (Plain(404, RoomNotFound), db)
      else if exists r :: r in db.reservas && r.habitacionId == id then (Plain(500, RoomDeleteError), db)
      else
        assert forall i :: 0 <= i < |kept| ==> kept[i] in db.rooms;
        (Plain(200, RoomDeleted), db.(rooms := kept))
  }

  /**
    On the seeded database, deleting room 1: as written the answer is 500
    and the room stays; as the tests expect, the answer is 200 and it is gone.
   */
  lemma RoomDeletionLost()
    ensures EliminarHabitacionAsWritten(Seeded, 1) == (Plain(500, RoomDeleteError), Seeded)
    ensures var res := EliminarHabitacion(Seeded, 1, false);
      && res.0 == Plain(200, RoomDeleted)
      && Seeded.rooms[0] !in res.1.rooms
      && Seeded.rooms[0] in Seeded.rooms
  {
  }

  /**
    `disponibilidadHabitaciones`: 400 when a date is missing or
    `fecha_fin <= fecha_inicio`; otherwise the query's undeclared `db` throws
    and the answer is 500.
   */
  function DisponibilidadHabitaciones(inicio: Option<string>, fin: Option<string>): (r: Response)
    ensures r == Plain(400, BadDates) <==>
      !Present(inicio) || !Present(fin) || StrLe(fin.value, inicio.value)
    ensures r != Plain(400, BadDates) ==> r == Plain(500, AvailabilityError)
  {
    if !Present(inicio) || !Present(fin) || StrLe(fin.value, inicio.value) then Plain(400, BadDates)
    else Plain(500, AvailabilityError)
  }

  /**
    The exclusion predicate of the admin query:
    `(fecha_inicio < fin AND fecha_fin > inicio) OR (fecha_inicio >= inicio AND fecha_inicio < fin)`.
   */
  predicate AdminExcludes(r: Reservation, inicio: Date, fin: Date) {
    (StrLt(r.inicio, fin) && StrLt(inicio, r.fin)) || (StrGe(r.inicio, inicio) && StrLt(r.inicio, fin))
  }

  /**
    For a stay that ends after it starts, the admin query excludes a room for
    exactly the reservations the user-facing handlers treat as overlapping.
   */
  lemma AdminExcludesIsOverlap(r: Reservation, inicio: Date, fin: Date)
    requires StrLt(r.inicio, r.fin)
    ensures AdminExcludes(r, inicio, fin) <==> Overlaps(r, inicio, fin)
  {
    StrLtTrichotomy(r.fin, inicio);
    StrLtTrichotomy(r.inicio, fin);
    StrLtTrichotomy(r.inicio, inicio);
    if StrGe(r.inicio, inicio) && StrLt(r.inicio, fin) {
      LtAfterLe(inicio, r.inicio, r.fin);
    }
  }
}

=== FILE: auth.dfy ===
/**
  The authentication middleware of backend/middleware/auth.js. The token is
  the second piece of the `Authorization` header split at single spaces
  (JavaScript `split(' ')` agrees with Text.Split on a one-character
  separator); the scheme word in front of it is never looked at.
  `jwt.verify` with the server's secret is the parameter `verify`, which
  yields the decoded claims or nothing when it throws.
 */
module Auth {
  import opened Text
  import opened Http
  import opened Hotel

  const TokenRequired := "No autorizado. Token requerido."
  const TokenInvalid := "Token inválido o expirado."

  /** The middleware either answers itself or calls `next` with `req.usuario` set. */
  datatype Outcome = Rejected(response: Response) | Next(usuario: Claims)

  /** `req.headers['authorization']?.split(' ')[1]`, counting `""` and `undefined` as no token. */
  function ExtractToken(header: Option<string>): (t: Option<string>)
    ensures t.Some? ==> t.value != "" && ' ' !in t.value
    ensures t.Some? <==> header.Some? && Count(header.value, ' ') >= 1 && Split(header.value, ' ')[1] != ""
    ensures t.Some? ==> t.value == Split(header.value, ' ')[1]
  {
    match header
    case None => None
    case Some(h) =>
      var pieces := Split(h, ' ');
      if |pieces| >= 2 && pieces[1] != "" then Some(pieces[1]) else None
  }

  /**
    The three-way decision: no token, a token `verify` rejects, or a token it
    accepts, whose claims are handed to `next` once.
   */
  function Authenticate(header: Option<string>, verify: string -> Option<Claims>): (o: Outcome)
    ensures ExtractToken(header).None? <==> o == Rejected(Plain(401, TokenRequired))
    ensures o.Next? <==> ExtractToken(header).Some? && verify(ExtractToken(header).value).Some?
    ensures o.Next? ==> o.usuario == verify(ExtractToken(header).value).value
    ensures ExtractToken(header).Some? && verify(ExtractToken(header).value).None? ==>
      o == Rejected(Plain(401, TokenInvalid))
    ensures o.Rejected? ==> o.response.status == 401
  {
    match ExtractToken(header)
    case None => Rejected(Plain(401, TokenRequired))
    case Some(token) =>
      match verify(token)
      case None => Rejected(Plain(401, TokenInvalid))
      case Some(claims) => Next(claims)
  }

  /** With no header at all the request is refused before `verify` is consulted. */
  lemma NoHeaderRejected(verify: string -> Option<Claims>)
    ensures Authenticate(None, verify) == Rejected(Plain(401, TokenRequired))
  {
  }

  /**
    `scheme + " " + token + rest` yields `token`, whatever the scheme word is
    and whatever follows after a further space.
   */
  lemma {:induction false} TokenAfterFirstSpace(scheme: string, token: string, rest: seq<string>)
    requires ' ' !in scheme && ' ' !in token && token != ""
    requires forall k :: 0 <= k < |rest| ==> ' ' !in rest[k]
    ensures ExtractToken(Some(Join([scheme, token] + rest, ' '))) == Some(token)
  {
    SplitJoin([scheme, token] + rest, ' ');
  }

  /** The usual `Bearer <token>` header carries its token through. */
  lemma BearerHeader(token: string)
    requires ' ' !in token && token != ""
    ensures ExtractToken(Some("Bearer " + token)) == Some(token)
  {
    TokenAfterFirstSpace("Bearer", token, []);
    assert Join(["Bearer", token], ' ') == "Bearer " + token;
  }

  /** A header without a space, such as a bare token, counts as no token. */
  lemma NoSpaceMeansNoToken(h: string, verify: string -> Option<Claims>)
    requires ' ' !in h
    ensures Authenticate(Some(h), verify) == Rejected(Plain(401, TokenRequired))
  {
  }

  /** Two spaces after the scheme leave an empty second piece: no token either. */
  lemma DoubleSpaceMeansNoToken(scheme: string, token: string, verify: string -> Option<Claims>)
    requires ' ' !in scheme && ' ' !in token
    ensures Authenticate(Some(scheme + "  " + token), verify) == Rejected(Plain(401, TokenRequired))
  {
    var parts := [scheme, "", token];
    SplitJoin(parts, ' ');
    assert parts[1..] == ["", token];
    assert Join(["", token], ' ') == " " + token;
    assert Join(parts, ' ') == scheme + "  " + token;
  }

  /**
    A token `sign` issued at login passes the middleware with the same claims,
    provided `verify` accepts what `sign` produces (what a shared secret and
    an unexpired token give).
   */
  lemma SignedTokenAccepted(claims: Claims, sign: Claims -> string, verify: string -> Option<Claims>)
    requires ' ' !in sign(claims) && sign(claims) != ""
    requires verify(sign(claims)) == Some(claims)
    ensures Authenticate(Some("Bearer " + sign(claims)), verify) == Next(claims)
  {
    BearerHeader(sign(claims));
  }

  /** A bearer token that `verify` refuses (forged, expired, wrong secret) gets the second 401 message. */
  lemma RefusedTokenRejected(token: string, verify: string -> Option<Claims>)
    requires ' ' !in token && token != ""
    requires verify(token).None?
    ensures Authenticate(Some("Bearer " + token), verify) == Rejected(Plain(401, TokenInvalid))
  {
    BearerHeader(token);
  }
}

=== FILE: hotel.dfy ===
/**
  The hotel reservation backend's database, as an immutable value: users keyed
  by e-mail address, rooms, and the reservations table, each table with the
  next value of its `SERIAL` id. The handlers of usuariosController.js and
  adminController.js are functions from a state and a request to a response
  and a new state.

  Dates are the ISO `YYYY-MM-DD` strings the client sends. The handlers
  compare them as JavaScript strings and the SQL compares them as `DATE`
  values; on well-formed ISO dates both orders are the lexicographic order of
  Text.StrLt, which is the one used throughout.
 */
module Hotel {
  import opened Text
  import opened Http

  type Date = string

  /** The claims a login token carries: `{ id, nombre, rol }`. */
  datatype Claims = Claims(id: nat, nombre: string, rol: string)

  /** A row of `usuarios`; `contrasena` holds the bcrypt hash, never the password. */
  datatype User = User(id: nat, nombre: string, correo: string, contrasena: string, rol: string)

  /** A row of `habitaciones`; the optional columns are NULL when not supplied. */
  datatype Room = Room(
    id: nat,
    numero: string,
    tipo: string,
    precio: real,
    descripcion: Option<string>,
    servicios: Option<string>,
    imagen: Option<string>)

  /** A row of `reservas`: a stay in room `habitacionId` from `inicio` up to the day `fin`. */
  datatype Reservation = Reservation(
    id: nat,
    usuarioId: Option<nat>,  // NULL when the request carried no usuario_id
    habitacionId: nat,
    inicio: Date,
    fin: Date)

  datatype Db = Db(
    users: map<string, User>,
    rooms: seq<Room>,
    reservas: seq<Reservation>,
    nextUserId: nat,
    nextRoomId: nat,
    nextReservaId: nat)

  /** A room of an availability listing, with the computed `disponible` column. */
  datatype RoomRow = RoomRow(room: Room, disponible: bool)

  /** A row of "my reservations": the reservation joined with its room. */
  datatype ReservaRow = ReservaRow(reserva: Reservation, room: Room)

  /** The JSON body of a response. */
  datatype Body =
    | Message(mensaje: string, claseMensaje: Option<string>)
    | Habitaciones(habitaciones: seq<RoomRow>)
    | Reservas(reservas: seq<ReservaRow>)
    | LoginOk(usuario: Claims, token: string)
    | Pong(delayMs: int)
    | Echo(recibido: Json)

  datatype Response = Response(status: nat, body: Body)

  /** `res.status(status).json({ mensaje, claseMensaje: 'error' })`. */
  function Error(status: nat, mensaje: string): Response {
    Response(status, Message(mensaje, Some("error")))
  }

  /** `res.json({ mensaje, claseMensaje: 'success' })`. */
  function Success(mensaje: string): Response {
    Response(200, Message(mensaje, Some("success")))
  }

  /** `res.status(status).json({ mensaje })`, the admin handlers' shape. */
  function Plain(status: nat, mensaje: string): Response {
    Response(status, Message(mensaje, None))
  }

  /** JavaScript `a >= b` on strings. */
  predicate StrGe(a: string, b: string) {
    !StrLt(a, b)
  }

  /**
    `NOT (r.fecha_fin <= inicio OR r.fecha_inicio >= fin)`: the stay of `r`
    and the half-open interval `[inicio, fin)` share a night.
   */
  predicate Overlaps(r: Reservation, inicio: Date, fin: Date) {
    !(StrLe(r.fin, inicio) || StrGe(r.inicio, fin))
  }

  /** Some reservation of room `habitacionId` overlaps `[inicio, fin)`. */
  predicate Conflicts(rs: seq<Reservation>, habitacionId: nat, inicio: Date, fin: Date) {
    exists k :: 0 <= k < |rs| && rs[k].habitacionId == habitacionId && Overlaps(rs[k], inicio, fin)
  }

  /**
    The overlap test means what it should: two non-empty stays overlap exactly
    when some day `d` is a night of both, that is `inicio <= d < fin` for each.
   */
  lemma OverlapMeansSharedNight(r: Reservation, inicio: Date, fin: Date)
    requires StrLt(r.inicio, r.fin) && StrLt(inicio, fin)
    ensures Overlaps(r, inicio, fin) <==>
      exists d :: StrLe(inicio, d) && StrLt(d, fin) && StrLe(r.inicio, d) && StrLt(d, r.fin)
  {
    StrLeTotalOrder(inicio, r.inicio, r.inicio);
    if Overlaps(r, inicio, fin) {
      var d := if StrLe(inicio, r.inicio) then r.inicio else inicio;
      StrLtIrreflexive(d);
      StrLeTotalOrder(d, d, d);
      assert StrLe(inicio, d) && StrLe(r.inicio, d) && StrLt(d, fin) && StrLt(d, r.fin);
    }
    forall d | StrLe(inicio, d) && StrLt(d, fin) && StrLe(r.inicio, d) && StrLt(d, r.fin)
      ensures Overlaps(r, inicio, fin)
    {
      LtAfterLe(inicio, d, r.fin);
      LtAfterLe(r.inicio, d, fin);
    }
  }

  lemma LtAfterLe(a: string, b: string, c: string)
    requires StrLe(a, b) && StrLt(b, c)
    ensures StrLt(a, c)
  {
    StrLtTrichotomy(a, b);
    if StrLt(a, b) {
      StrLtTransitive(a, b, c);
    }
  }

  /** Overlap does not depend on which of the two stays is asked about. */
  lemma OverlapSymmetric(a: Reservation, b: Reservation)
    ensures Overlaps(a, b.inicio, b.fin) <==> Overlaps(b, a.inicio, a.fin)
  {
  }

  /** A stay that starts on the day another one ends does not overlap it. */
  lemma {:induction false} BackToBackStaysDoNotOverlap(r: Reservation, fin: Date)
    ensures !Overlaps(r, r.fin, fin)
  {
    StrLtIrreflexive(r.fin);
  }

  /** No two different reservations of the same room overlap. */
  ghost predicate NoDoubleBooking(rs: seq<Reservation>) {
    forall a, b :: a in rs && b in rs && a.id != b.id && a.habitacionId == b.habitacionId ==>
      !Overlaps(a, b.inicio, b.fin)
  }

  ghost predicate UniqueReservaIds(rs: seq<Reservation>) {
    forall i, j :: 0 <= i < j < |rs| ==> rs[i].id != rs[j].id
  }

  ghost predicate UniqueRoomIds(rooms: seq<Room>) {
    forall i, j :: 0 <= i < j < |rooms| ==> rooms[i].id != rooms[j].id
  }

  /**
    What every reachable state satisfies: users are stored under their own
    address with distinct ids below the next one, room and reservation ids are
    distinct and below the next ones, every stay ends after it starts, and no
    room is booked twice for the same night.
   */
  ghost predicate Valid(db: Db) {
    && (forall e :: e in db.users ==> db.users[e].correo == e && db.users[e].id < db.nextUserId)
    && (forall e1, e2 :: e1 in db.users && e2 in db.users && e1 != e2 ==> db.users[e1].id != db.users[e2].id)
    && (forall i :: 0 <= i < |db.rooms| ==> db.rooms[i].id < db.nextRoomId)
    && UniqueRoomIds(db.rooms)
    && (forall r :: r in db.reservas ==> r.id < db.nextReservaId && StrLt(r.inicio, r.fin))
    && UniqueReservaIds(db.reservas)
    && NoDoubleBooking(db.reservas)
  }

  /** In a valid state, no two reservations of the same room, at any positions, overlap. */
  lemma ValidMeansNoOverlap(db: Db, i: nat, j: nat)
    requires Valid(db)
    requires i < |db.reservas| && j < |db.reservas| && i != j
    requires db.reservas[i].habitacionId == db.reservas[j].habitacionId
    ensures !Overlaps(db.reservas[i], db.reservas[j].inicio, db.reservas[j].fin)
  {
    if i < j {
      assert db.reservas[i].id != db.reservas[j].id;
    } else {
      assert db.reservas[j].id != db.reservas[i].id;
    }
  }

  /** Every table empty, every `SERIAL` at 1: the base case of the invariant. */
  const Empty := Db(map[], [], [], 1, 1, 1)

  lemma EmptyValid()
    ensures Valid(Empty)
  {
  }

  /** A room as the basic schema inserts it: a number and a type, whose name and price the room carries. */
  function SeedRoom(id: nat, numero: string, tipo: string, precio: real): Room {
    Room(id, numero, tipo, precio, None, None, None)
  }

  /**
    The database after the basic schema script: no users and no reservations,
    the five rooms '101' to '301' with ids 1 to 5, the first two of type
    'Individual' (50.00), the next two 'Doble' (75.00) and the last 'Suite'
    (150.00).
   */
  const Seeded := Db(map[], [
      SeedRoom(1, "101", "Individual", 50.0),
      SeedRoom(2, "102", "Individual", 50.0),
      SeedRoom(3, "201", "Doble", 75.0),
      SeedRoom(4, "202", "Doble", 75.0),
      SeedRoom(5, "301", "Suite", 150.0)
    ], [], 1, 6, 1)

  lemma SeededValid()
    ensures Valid(Seeded)
    ensures |Seeded.rooms| == 5 && Seeded.reservas == []
  {
  }

  /** The reservations of `rs` that satisfy `keep`, in their original order. */
  function FilterReservas(rs: seq<Reservation>, keep: Reservation -> bool): (r: seq<Reservation>)
    ensures forall x :: x in r <==> x in rs && keep(x)
    ensures |r| <= |rs|
    ensures |r| == |rs| <==> forall k :: 0 <= k < |rs| ==> keep(rs[k])
    ensures UniqueReservaIds(rs) ==> UniqueReservaIds(r)
  {
    if |rs| == 0 then []
    else
      var rest := FilterReservas(rs[1..], keep);
      assert forall x :: x in rs <==> x == rs[0] || x in rs[1..];
      if keep(rs[0]) then
        HeadIdFresh(rs, rest);
        [rs[0]] + rest
      else
        rest
  }

  /** With distinct ids, the head's id is none of the ids among the rest. */
  lemma HeadIdFresh(rs: seq<Reservation>, rest: seq<Reservation>)
    requires |rs| > 0
    requires forall x :: x in rest ==> x in rs[1..]
    ensures UniqueReservaIds(rs) ==> forall k :: 0 <= k < |rest| ==> rest[k].id != rs[0].id
  {
    if UniqueReservaIds(rs) {
      forall k | 0 <= k < |rest|
        ensures rest[k].id != rs[0].id
      {
        assert rest[k] in rs[1..];
        var m :| 0 <= m < |rs[1..]| && rs[1..][m] == rest[k];
        assert rs[m + 1] == rest[k];
      }
    }
  }
}

=== FILE: http.dfy ===
/**
  Request values as the Express handlers see them: a field of `req.body`,
  `req.query` or `req.params` is absent (`undefined`) or holds a value, and the
  handlers test presence with JavaScript truthiness (`!x`), under which the
  empty string and the number 0 count as missing.
 */
module Http {

  datatype Option<+T> = None | Some(value: T)

  /** A JSON value, as `express.json()` parses a request body. */
  datatype Json =
    | JNull
    | JBool(b: bool)
    | JNumber(n: real)
    | JString(s: string)
    | JArray(items: seq<Json>)
    | JObject(members: seq<(string, Json)>)

  /** A string field that passes `!x`: present and not empty. */
  predicate Present(x: Option<string>) {
    x.Some? && x.value != ""
  }

  /** A numeric id that passes `!x`: present and not 0. */
  predicate PresentId(x: Option<nat>) {
    x.Some? && x.value != 0
  }

  /** A numeric amount that passes `!x`: present and not 0. */
  predicate PresentAmount(x: Option<real>) {
    x.Some? && x.value != 0.0
  }
}

=== FILE: markdown.dfy ===
/**
  The Markdown line scanner of `create_word_document` in convert_to_formats.py
  and simple_converter.py. Both scripts run the same loop and differ only in
  the fonts, sizes and alignment they give the paragraphs, so the document is
  abstracted to the sequence of blocks it receives, in order.

  Scan / ScanFrom follow convert_to_formats.py as a recursive definition, one
  step per loop iteration; ScanLoop follows simple_converter.py as the while
  loop it is, and is proved to produce the same blocks.
 */
module Markdown {
  import opened Text

  datatype Block =
    | Title(text: string)
    | Subtitle(text: string)
    | Header(text: string)
    | Table(cells: seq<seq<string>>)   // rows of cells, every row as wide as the first line says
    | Code(text: string)
    | Bullet(text: string)
    | Numbered(text: string)
    | Rule                             // the paragraph of 50 underscores written for `---`
    | Bold(text: string)
    | Paragraph(text: string)

  const CheckMark: char := '\U{2705}'
  const CrossMark: char := '\U{274C}'

  /** Python `s[2:-2]`: the text between the first two and the last two characters, empty when `s` is shorter than four. */
  function BoldText(line: string): (t: string)
    ensures |line| >= 4 ==> line == line[..2] + t + line[|line| - 2..]
    ensures |line| < 4 ==> t == ""
  {
    if |line| >= 4 then line[2..|line| - 2] else ""
  }

  /** A stripped line that opens a table row. */
  predicate TableLine(line: string) {
    "|" <= line
  }

  /** A stripped line that opens or closes a code fence. */
  predicate FenceLine(line: string) {
    "```" <= line
  }

  /** One past the last of the maximal run of table lines, among the stripped lines `sl`, that starts at `i`. */
  function TableEnd(sl: seq<string>, i: nat): (e: nat)
    requires i <= |sl|
    ensures i <= e <= |sl|
    ensures forall k :: i <= k < e ==> TableLine(sl[k])
    ensures e == |sl| || !TableLine(sl[e])
    decreases |sl| - i
  {
    if i < |sl| && TableLine(sl[i]) then TableEnd(sl, i + 1) else i
  }

  /** The first of the stripped lines `sl` at or after `j` that is a fence, or `|sl|`. */
  function FenceEnd(sl: seq<string>, j: nat): (e: nat)
    requires j <= |sl|
    ensures j <= e <= |sl|
    ensures forall k :: j <= k < e ==> !FenceLine(sl[k])
    ensures e == |sl| || FenceLine(sl[e])
    decreases |sl| - j
  {
    if j < |sl| && !FenceLine(sl[j]) then FenceEnd(sl, j + 1) else j
  }

  /** The text of cell `c` of a row split at '|': the stripped piece, or "" past the row's end. */
  function CellText(pieces: seq<string>, c: nat): string {
    if c + 2 < |pieces| then Strip(pieces[c + 1]) else ""
  }

  /** The first `cols` cells of a table line. */
  function RowCells(row: string, cols: nat): (cells: seq<string>)
    ensures |cells| == cols
  {
    seq(cols, c requires 0 <= c < cols => CellText(Split(row, '|'), c))
  }

  /** The column count of a table: the pieces of its first line, less the two outer ones. */
  function Columns(first: string): (cols: nat)
    requires "|" <= first
    ensures cols == Count(first, '|') - 1
  {
    assert first[0] == '|';
    assert Count(first, '|') >= 1;
    |Split(first, '|')| - 2
  }

  /**
    The table built from stripped table lines: one row per line, every row
    with one cell per bar of the first line, less one.
   */
  function MakeTable(rows: seq<string>): (b: Block)
    requires |rows| >= 1 && TableLine(rows[0])
    ensures b.Table? && |b.cells| == |rows|
    ensures forall r :: 0 <= r < |rows| ==> |b.cells[r]| == Count(rows[0], '|') - 1
  {
    var cols := Columns(rows[0]);
    Table(seq(|rows|, r requires 0 <= r < |rows| => RowCells(rows[r], cols)))
  }

  /** The stripped form of every line. */
  function Stripped(lines: seq<string>): (r: seq<string>)
    ensures |r| == |lines|
    ensures forall k {:trigger r[k]} :: 0 <= k < |lines| ==> r[k] == Strip(lines[k])
  {
    seq(|lines|, k requires 0 <= k < |lines| => Strip(lines[k]))
  }

  /** The three heading prefixes; the stripped line opens with one of them. */
  predicate IsHeading(line: string) {
    "# " <= line || "## " <= line || "### " <= line
  }

  /** The block of a heading line, its prefix removed. */
  function HeadingBlock(line: string): (b: Block)
    requires IsHeading(line)
    ensures b.Title? || b.Subtitle? || b.Header?
  {
    if "# " <= line then Title(line[2..])
    else if "## " <= line then Subtitle(line[3..])
    else Header(line[4..])
  }

  /** The table branch at line `i`: the whole run of table lines, and a table only if it has two or more. */
  function TableStep(lines: seq<string>, i: nat): (r: (seq<Block>, nat))
    requires i < |lines| && TableLine(Strip(lines[i]))
    ensures i < r.1 <= |lines|
    ensures |r.0| <= 1
  {
    var sl := Stripped(lines);
    var e := TableEnd(sl, i);
    (if e - i >= 2 then [MakeTable(sl[i..e])] else [], e)
  }

  /** The code branch at line `i`: the unstripped lines up to the closing fence, which is skipped too. */
  function FenceStep(lines: seq<string>, i: nat): (r: (seq<Block>, nat))
    requires i < |lines|
    ensures i < r.1 <= |lines| + 1
    ensures |r.0| <= 1
  {
    var e := FenceEnd(Stripped(lines), i + 1);
    (if e > i + 1 then [Code(Join(lines[i + 1..e], '\n'))] else [], e + 1)
  }

  /** The branches after the code fence, for a line that matched none before them. */
  function LineBlocks(line: string): (out: seq<Block>)
    ensures |out| <= 1
  {
    if "- " <= line || "* " <= line then [Bullet(line[2..])]
    else if "1. " <= line then [Numbered(line[3..])]
    else if line == "---" then [Rule]
    else if "**" <= line && EndsWith(line, "**") then [Bold(BoldText(line))]
    else if |line| > 0 && (line[0] == CheckMark || line[0] == CrossMark) then [Paragraph(Strip(line[1..]))]
    else if line != "" && !("[" <= line) && !("![" <= line) then [Paragraph(line)]
    else []
  }

  /**
    One iteration of the loop at line `i`: the blocks it adds and the index it
    continues at. The branches are tried in the scripts' order and the first
    that matches decides.
   */
  function Step(lines: seq<string>, i: nat): (r: (seq<Block>, nat))
    requires i < |lines|
    ensures i < r.1 <= |lines| + 1
    ensures |r.0| <= 1
  {
    var line := Strip(lines[i]);
    if IsHeading(line) then ([HeadingBlock(line)], i + 1)
    else if TableLine(line) then TableStep(lines, i)
    else if FenceLine(line) then FenceStep(lines, i)
    else (LineBlocks(line), i + 1)
  }

  /** The blocks the loop adds from line `i` on. */
  function ScanFrom(lines: seq<string>, i: nat): (blocks: seq<Block>)
    ensures i >= |lines| ==> blocks == []
    ensures i < |lines| ==> |blocks| <= |lines| - i
    decreases |lines| - i
  {
    if i >= |lines| then []
    else
      var (out, next) := Step(lines, i);
      out + ScanFrom(lines, next)
  }

  /** The blocks of a whole file: `md_content.split('\n')`, scanned from the first line. */
  function Convert(content: string): (blocks: seq<Block>)
    ensures |blocks| <= Count(content, '\n') + 1
  {
    ScanFrom(Split(content, '\n'), 0)
  }

  /**
    What `main` ends with: the document written, or the IndexError of an
    empty bold paragraph, which it catches and prints. The other exceptions
    `main` catches are not modelled, so `Written` only says that this one
    did not occur.
   */
  datatype Outcome = Written(blocks: seq<Block>) | Failed

  /**
    The scripts as written: `p.runs[0]` on a bold paragraph with no text
    raises IndexError, `main` catches it and no document is written at all,
    whatever else the file holds.
   */
  function ConvertAsWritten(content: string): (doc: Outcome)
    ensures Bold("") in Convert(content) ==> doc == Failed
    ensures doc.Written? ==> doc.blocks == Convert(content)
  {
    var blocks := Convert(content);
    if Bold("") in blocks then Failed else Written(blocks)
  }

  // ---------------------------------------------------------------------
  // The loop of simple_converter.py
  // ---------------------------------------------------------------------

  /** `create_word_document` of simple_converter.py, with the blocks in place of the document. */
  method ScanLoop(lines: seq<string>) returns (blocks: seq<Block>)
    ensures blocks == ScanFrom(lines, 0)
  {
    blocks := [];
    var i: nat := 0;
    while i < |lines|
      invariant i <= |lines| + 1
      invariant blocks + ScanFrom(lines, i) == ScanFrom(lines, 0)
      decreases |lines| + 1 - i
    {
      var out, next := LoopBody(lines, i);
      assert ScanFrom(lines, i) == out + ScanFrom(lines, next);
      blocks := blocks + out;
      i := next;
    }
  }

  /** One pass of the loop body of simple_converter.py at line `i`, including its inner loops. */
  method LoopBody(lines: seq<string>, i0: nat) returns (out: seq<Block>, i: nat)
    requires i0 < |lines|
    ensures (out, i) == Step(lines, i0)
  {
    i := i0;
    out := [];
    var line := Strip(lines[i]);
    if "# " <= line {
      out := [Title(line[2..])];
    } else if "## " <= line {
      out := [Subtitle(line[3..])];
    } else if "### " <= line {
      out := [Header(line[4..])];
    } else if TableLine(line) {
      var tableLines;
      tableLines, i := TableLoop(lines, i0);
      if |tableLines| >= 2 {
        out := [MakeTable(tableLines)];
      }
      return;
    } else if FenceLine(line) {
      var codeLines;
      codeLines, i := FenceLoop(lines, i0 + 1);
      if |codeLines| > 0 {
        out := [Code(Join(codeLines, '\n'))];
      }
    } else {
      out := LineBranches(line);
    }
    i := i + 1;
  }

  /** The remaining `elif` branches of the loop body, from the bullet test on. */
  method LineBranches(line: string) returns (out: seq<Block>)
    ensures out == LineBlocks(line)
  {
    out := [];
    if "- " <= line || "* " <= line {
      out := [Bullet(line[2..])];
    } else if "1. " <= line {
      out := [Numbered(line[3..])];
    } else if line == "---" {
      out := [Rule];
    } else if "**" <= line && EndsWith(line, "**") {
      out := [Bold(BoldText(line))];
    } else if |line| > 0 && (line[0] == CheckMark || line[0] == CrossMark) {
      out := [Paragraph(Strip(line[1..]))];
    } else if line != "" && !("[" <= line) && !("![" <= line) {
      out := [Paragraph(line)];
    }
  }

  /** The inner `while` of the table branch: collects the stripped table lines from `i0` on. */
  method TableLoop(lines: seq<string>, i0: nat) returns (tableLines: seq<string>, i: nat)
    requires i0 <= |lines|
    ensures i == TableEnd(Stripped(lines), i0)
    ensures tableLines == Stripped(lines)[i0..i]
  {
    ghost var sl := Stripped(lines);
    tableLines := [];
    i := i0;
    while i < |lines| && TableLine(Strip(lines[i]))
      invariant i0 <= i <= |lines|
      invariant tableLines == sl[i0..i]
      invariant TableEnd(sl, i0) == TableEnd(sl, i)
      decreases |lines| - i
    {
      assert sl[i] == Strip(lines[i]);
      assert sl[i0..i + 1] == sl[i0..i] + [sl[i]];
      tableLines := tableLines + [Strip(lines[i])];
      i := i + 1;
    }
    assert i == |lines| || sl[i] == Strip(lines[i]);
  }

  /** The inner `while` of the code branch: collects the unstripped lines up to the closing fence. */
  method FenceLoop(lines: seq<string>, j: nat) returns (codeLines: seq<string>, i: nat)
    requires j <= |lines|
    ensures i == FenceEnd(Stripped(lines), j)
    ensures codeLines == lines[j..i]
  {
    ghost var sl := Stripped(lines);
    codeLines := [];
    i := j;
    while i < |lines| && !FenceLine(Strip(lines[i]))
      invariant j <= i <= |lines|
      invariant codeLines == lines[j..i]
      invariant FenceEnd(sl, j) == FenceEnd(sl, i)
      decreases |lines| - i
    {
      assert sl[i] == Strip(lines[i]);
      assert lines[j..i + 1] == lines[j..i] + [lines[i]];
      codeLines := codeLines + [lines[i]];
      i := i + 1;
    }
    assert i == |lines| || sl[i] == Strip(lines[i]);
  }
}

=== FILE: markdown_lemmas.dfy ===
/**
  What the Markdown scanner does with each kind of line: the heading,
  list, rule, bold and emoji prefixes give back the text after them, a run of
  table lines becomes one table whose rows give back their cells, a code
  fence collects the lines up to the closing fence, and links, images and
  blank lines add nothing.
 */
module MarkdownLemmas {
  import opened Text
  import opened Markdown

  /** Text that `strip` leaves alone and that is not empty. */
  predicate Trimmed(x: string) {
    |x| > 0 && !IsPySpace(x[0]) && !IsPySpace(x[|x| - 1])
  }

  /** A prefix that starts with a visible character, followed by trimmed text, is stripped to itself. */
  lemma PrefixedStripped(p: string, x: string)
    requires |p| > 0 && !IsPySpace(p[0]) && Trimmed(x)
    ensures Strip(p + x) == p + x
  {
    var s := p + x;
    assert s[0] == p[0] && s[|s| - 1] == x[|x| - 1];
    StripNoop(s);
  }

  /** The loop adds the blocks of one step and carries on where the step left off. */
  lemma ScanFromStep(lines: seq<string>, i: nat)
    requires i < |lines|
    ensures ScanFrom(lines, i) == Step(lines, i).0 + ScanFrom(lines, Step(lines, i).1)
  {
  }

  // ---------------------------------------------------------------------
  // Headings and one-line blocks
  // ---------------------------------------------------------------------

  /**
    A line that strips to `# x`, `## x` or `### x` becomes a title, a subtitle
    or a header holding exactly `x`, however the line was indented.
   */
  lemma HeadingLines(lines: seq<string>, i: nat, x: string)
    requires i < |lines|
    ensures Strip(lines[i]) == "# " + x ==> Step(lines, i) == ([Title(x)], i + 1)
    ensures Strip(lines[i]) == "## " + x ==> Step(lines, i) == ([Subtitle(x)], i + 1)
    ensures Strip(lines[i]) == "### " + x ==> Step(lines, i) == ([Header(x)], i + 1)
  {
    assert ("# " + x)[..2] == "# ";
    assert ("## " + x)[..3] == "## " && ("## " + x)[1] == '#';
    assert ("### " + x)[..4] == "### " && ("### " + x)[1] == '#' && ("### " + x)[2] == '#';
  }

  /** A stripped line that opens with none of the heading, table or fence prefixes goes to LineBlocks. */
  lemma PlainLineStep(lines: seq<string>, i: nat)
    requires i < |lines|
    requires |Strip(lines[i])| > 0 ==> Strip(lines[i])[0] != '#' && Strip(lines[i])[0] != '|' && Strip(lines[i])[0] != '`'
    ensures Step(lines, i) == (LineBlocks(Strip(lines[i])), i + 1)
  {
  }

  /** `- x` and `* x` become a bullet item, `1. x` a numbered item, `---` the rule. */
  lemma ListLines(x: string)
    requires |x| > 0
    ensures LineBlocks("- " + x) == [Bullet(x)]
    ensures LineBlocks("* " + x) == [Bullet(x)]
    ensures LineBlocks("1. " + x) == [Numbered(x)]
    ensures LineBlocks("---") == [Rule]
  {
    assert ("- " + x)[..2] == "- ";
    assert ("* " + x)[..2] == "* ";
    assert ("1. " + x)[..3] == "1. " && ("1. " + x)[0] == '1';
    assert "---"[1] == '-';
  }

  /**
    `**x**` is a bold paragraph holding exactly `x`, for every `x`; the empty
    one, `****`, included.
   */
  lemma BoldLine(x: string)
    ensures LineBlocks("**" + x + "**") == [Bold(x)]
  {
    var line := "**" + x + "**";
    assert line[..2] == "**" && line[1] == '*';
    assert line[|line| - 2..] == "**";
    assert line[2..|line| - 2] == x;
  }

  /** A line opening with ✅ or ❌ is a paragraph of the stripped text after the mark. */
  lemma EmojiLine(mark: char, rest: string)
    requires mark == CheckMark || mark == CrossMark
    ensures LineBlocks([mark] + rest) == [Paragraph(Strip(rest))]
  {
    var line := [mark] + rest;
    assert line[0] == mark && line[1..] == rest;
  }

  /**
    A line adds no block exactly when, once stripped, it is empty or opens a
    link (`[`) or an image (`![`).
   */
  lemma SkippedLines(line: string)
    ensures LineBlocks(line) == [] <==> line == "" || "[" <= line || "![" <= line
  {
    if line != "" && ("[" <= line || "![" <= line) {
      assert line[0] == '[' || line[0] == '!';
      assert !("- " <= line) && !("* " <= line) && !("1. " <= line) && !("**" <= line);
      assert line != "---";
    }
  }

  // ---------------------------------------------------------------------
  // Tables
  // ---------------------------------------------------------------------

  /**
    A maximal run of table lines from `i` to `e`: two or more of them become
    one table with a row per line, each row as wide as the first line; a lone
    table line is dropped. Either way the loop continues after the run.
   */
  lemma TableRun(lines: seq<string>, i: nat, e: nat)
    requires i < e <= |lines|
    requires forall k :: i <= k < e ==> TableLine(Strip(lines[k]))
    requires e == |lines| || !TableLine(Strip(lines[e]))
    ensures Step(lines, i).1 == e
    ensures e == i + 1 ==> Step(lines, i).0 == []
    ensures e >= i + 2 ==>
      && Step(lines, i).0 == [Step(lines, i).0[0]]
      && Step(lines, i).0[0].Table?
      && |Step(lines, i).0[0].cells| == e - i
      && forall r :: 0 <= r < e - i ==>
           Step(lines, i).0[0].cells[r] == RowCells(Strip(lines[i + r]), Columns(Strip(lines[i])))
  {
    TableLineStep(lines, i);
    var sl := Stripped(lines);
    TableEndIs(sl, i, e);
    var line := Strip(lines[i]);
    if e >= i + 2 {
      var rows := sl[i..e];
      assert rows[0] == line;
      forall r | 0 <= r < e - i
        ensures rows[r] == Strip(lines[i + r])
      {
      }
    }
  }

  /** A table line is handled by the table branch. */
  lemma TableLineStep(lines: seq<string>, i: nat)
    requires i < |lines| && TableLine(Strip(lines[i]))
    ensures Step(lines, i) == TableStep(lines, i)
  {
    var line := Strip(lines[i]);
    assert line[0] == '|';
    assert !IsHeading(line);
  }

  /** TableEnd finds exactly the end of the run. */
  lemma {:induction false} TableEndIs(sl: seq<string>, i: nat, e: nat)
    requires i <= e <= |sl|
    requires forall k :: i <= k < e ==> TableLine(sl[k])
    requires e == |sl| || !TableLine(sl[e])
    ensures TableEnd(sl, i) == e
    decreases e - i
  {
    if i < e {
      TableEndIs(sl, i + 1, e);
    }
  }

  /** A join of at least one piece, followed by one more separator, is the join with an empty last piece. */
  lemma {:induction false} JoinEmptyLast(parts: seq<string>, sep: char)
    requires |parts| >= 1
    ensures Join(parts + [""], sep) == Join(parts, sep) + [sep]
  {
    if |parts| > 1 {
      JoinEmptyLast(parts[1..], sep);
      assert (parts + [""])[1..] == parts[1..] + [""];
    }
  }

  /**
    The row `|c1|c2|...|cn|` written from stripped cells without '|' gives its
    cells back when the table has `n` columns.
   */
  lemma RowCellsRoundTrip(cells: seq<string>)
    requires |cells| >= 1
    requires forall c :: 0 <= c < |cells| ==> '|' !in cells[c] && Strip(cells[c]) == cells[c]
    ensures RowCells("|" + Join(cells, '|') + "|", |cells|) == cells
  {
    RowCellsFit(cells, |cells|);
  }

  /**
    The row `|c1|c2|...|cn|`, cells padded with spaces or not, in a table of
    `cols` columns: each cell is read back stripped, cells past the last
    column are dropped and columns past the last cell stay empty.
   */
  lemma RowCellsFit(cells: seq<string>, cols: nat)
    requires |cells| >= 1
    requires forall c :: 0 <= c < |cells| ==> '|' !in cells[c]
    ensures forall c :: 0 <= c < cols ==>
      RowCells("|" + Join(cells, '|') + "|", cols)[c] == (if c < |cells| then Strip(cells[c]) else "")
  {
    var row := "|" + Join(cells, '|') + "|";
    RowPieces(cells);
    PaddedCells(Split(row, '|'), cells, cols);
  }

  /**
    A table written row by row as `|c1|...|cn|`, padded cells and all: the
    table has as many columns as its first row has cells, and every row reads
    back as its stripped cells, cut or filled with empty cells to that width.
   */
  lemma WrittenTable(table: seq<seq<string>>, rows: seq<string>)
    requires |table| >= 1 && |rows| == |table|
    requires forall r :: 0 <= r < |table| ==> |table[r]| >= 1
    requires forall r, c :: 0 <= r < |table| && 0 <= c < |table[r]| ==> '|' !in table[r][c]
    requires forall r :: 0 <= r < |rows| ==> rows[r] == "|" + Join(table[r], '|') + "|"
    ensures TableLine(rows[0])
    ensures MakeTable(rows).Table? && |MakeTable(rows).cells| == |rows|
    ensures forall r :: 0 <= r < |rows| ==> |MakeTable(rows).cells[r]| == |table[0]|
    ensures forall r, c :: 0 <= r < |rows| && 0 <= c < |table[0]| ==>
      MakeTable(rows).cells[r][c] == (if c < |table[r]| then Strip(table[r][c]) else "")
  {
    assert rows[0][0] == '|';
    RowPieces(table[0]);
    assert Columns(rows[0]) == |table[0]|;
    var b := MakeTable(rows);
    forall r | 0 <= r < |rows|
      ensures |b.cells[r]| == |table[0]|
      ensures forall c :: 0 <= c < |table[0]| ==> b.cells[r][c] == (if c < |table[r]| then Strip(table[r][c]) else "")
    {
      assert b.cells[r] == RowCells(rows[r], |table[0]|);
      RowCellsFit(table[r], |table[0]|);
    }
  }

  /** The cell texts of the pieces `["", c1, ..., cn, ""]`: the stripped cells, then empty ones. */
  lemma PaddedCells(pieces: seq<string>, cells: seq<string>, cols: nat)
    requires pieces == [""] + (cells + [""])
    ensures forall c :: 0 <= c < cols ==> CellText(pieces, c) == (if c < |cells| then Strip(cells[c]) else "")
  {
    forall c | 0 <= c < cols
      ensures CellText(pieces, c) == (if c < |cells| then Strip(cells[c]) else "")
    {
      if c < |cells| {
        var x := cells[c];
        assert c + 2 < |pieces|;
        assert pieces[c + 1] == x;
      } else {
        assert !(c + 2 < |pieces|);
      }
    }
  }

  /** The pieces of a written row: an empty one at each end, the cells between. */
  lemma RowPieces(cells: seq<string>)
    requires |cells| >= 1
    requires forall c :: 0 <= c < |cells| ==> '|' !in cells[c]
    ensures Split("|" + Join(cells, '|') + "|", '|') == [""] + (cells + [""])
  {
    var padded := cells + [""];
    var inner := Join(padded, '|');
    RowIsPaddedJoin(cells);
    PaddedHasNoBar(cells);
    SplitJoin(padded, '|');
    SplitCons([], '|', inner);
  }

  lemma RowIsPaddedJoin(cells: seq<string>)
    requires |cells| >= 1
    ensures "|" + Join(cells, '|') + "|" == [] + ['|'] + Join(cells + [""], '|')
  {
    var joined := Join(cells, '|');
    JoinEmptyLast(cells, '|');
    assert Join(cells + [""], '|') == joined + ['|'];
    assert ['|'] + joined + ['|'] == [] + ['|'] + (joined + ['|']);
  }

  lemma PaddedHasNoBar(cells: seq<string>)
    requires forall c :: 0 <= c < |cells| ==> '|' !in cells[c]
    ensures forall c :: 0 <= c < |cells + [""]| ==> '|' !in (cells + [""])[c]
  {
    forall c | 0 <= c < |cells + [""]|
      ensures '|' !in (cells + [""])[c]
    {
      if c < |cells| { assert (cells + [""])[c] == cells[c]; }
    }
  }

  // ---------------------------------------------------------------------
  // Code fences
  // ---------------------------------------------------------------------

  /**
    A fence at `i` whose next fence is at `e`: the lines strictly between,
    unstripped and joined with newlines, are one code block, and the loop goes
    on after the closing fence. With no closing fence (`e == |lines|`) the
    block runs to the end of the file; with nothing between, no block.
   */
  lemma FenceRun(lines: seq<string>, i: nat, e: nat)
    requires i < e <= |lines|
    requires FenceLine(Strip(lines[i]))
    requires forall k :: i < k < e ==> !FenceLine(Strip(lines[k]))
    requires e == |lines| || FenceLine(Strip(lines[e]))
    ensures Step(lines, i).1 == e + 1
    ensures e == i + 1 ==> Step(lines, i).0 == []
    ensures e > i + 1 ==> Step(lines, i).0 == [Code(Join(lines[i + 1..e], '\n'))]
  {
    FenceLineStep(lines, i);
    var sl := Stripped(lines);
    FenceEndIs(sl, i + 1, e);
  }

  /** A fence line is handled by the code branch. */
  lemma FenceLineStep(lines: seq<string>, i: nat)
    requires i < |lines| && FenceLine(Strip(lines[i]))
    ensures Step(lines, i) == FenceStep(lines, i)
  {
    var line := Strip(lines[i]);
    assert line[0] == '`';
    assert !IsHeading(line) && !TableLine(line);
  }

  /** FenceEnd finds exactly the next fence. */
  lemma {:induction false} FenceEndIs(sl: seq<string>, j: nat, e: nat)
    requires j <= e <= |sl|
    requires forall k :: j <= k < e ==> !FenceLine(sl[k])
    requires e == |sl| || FenceLine(sl[e])
    ensures FenceEnd(sl, j) == e
    decreases e - j
  {
    if j < e {
      FenceEndIs(sl, j + 1, e);
    }
  }

  // ---------------------------------------------------------------------
  // The empty bold paragraph
  // ---------------------------------------------------------------------

  /**
    The only lines that give an empty bold paragraph are `**`, `***` and
    `****`: a longer line between `**` and `**` has text inside.
   */
  lemma EmptyBoldLines(line: string)
    ensures LineBlocks(line) == [Bold("")] <==> line == "**" || line == "***" || line == "****"
  {
    if line == "**" || line == "***" || line == "****" {
      assert line[0] == '*' && line[1] == '*' && line[|line| - 1] == '*' && line[|line| - 2] == '*';
      assert "**" <= line && EndsWith(line, "**");
      assert !("- " <= line) && !("* " <= line) && !("1. " <= line);
    } else if LineBlocks(line) == [Bold("")] {
      BoldBranch(line);
    }
  }

  /** An empty bold block comes only from the bold branch, on a line of at most four characters. */
  lemma BoldBranch(line: string)
    requires LineBlocks(line) == [Bold("")]
    ensures line == "**" || line == "***" || line == "****"
  {
    assert "**" <= line && EndsWith(line, "**") && BoldText(line) == "";
    ShortBold(line);
  }

  lemma ShortBold(line: string)
    requires "**" <= line && EndsWith(line, "**") && BoldText(line) == ""
    ensures line == "**" || line == "***" || line == "****"
  {
    var n := |line|;
    assert n >= 2 && line[0] == '*' && line[1] == '*';
    assert line[n - 2..] == "**";
    assert line[n - 2] == '*' && line[n - 1] == '*';
    assert n <= 4 by {
      if n >= 4 {
        assert line == line[..2] + line[n - 2..];
      }
    }
    if n == 2 {
      assert line == "**";
    } else if n == 3 {
      assert line == "***";
    } else {
      assert line == "****";
    }
  }

  /** Line `i` is one the loop starts an iteration at, when it starts from line `from`. */
  ghost predicate Reached(lines: seq<string>, from: nat, i: nat)
    decreases |lines| - from
  {
    from == i || (from < i && from < |lines| && Reached(lines, Step(lines, from).1, i))
  }

  /** Whatever an iteration the loop reaches adds ends up in the blocks. */
  lemma {:induction false} ReachedBlocks(lines: seq<string>, from: nat, i: nat)
    requires i < |lines| && Reached(lines, from, i)
    ensures forall b :: b in Step(lines, i).0 ==> b in ScanFrom(lines, from)
    decreases |lines| - from
  {
    ScanFromStep(lines, from);
    if from != i {
      ReachedBlocks(lines, Step(lines, from).1, i);
    }
  }

  /**
    A file in which the loop reaches a line that strips to `**`, `***` or
    `****` writes no document, however many good lines surround it.
   */
  lemma EmptyBoldLineFails(content: string, i: nat)
    requires i < |Split(content, '\n')| && Reached(Split(content, '\n'), 0, i)
    requires var line := Strip(Split(content, '\n')[i]); line == "**" || line == "***" || line == "****"
    ensures ConvertAsWritten(content) == Failed
  {
    var lines := Split(content, '\n');
    var line := Strip(lines[i]);
    assert line[0] == '*';
    PlainLineStep(lines, i);
    EmptyBoldLines(line);
    ReachedBlocks(lines, 0, i);
    assert Bold("") in Step(lines, i).0;
  }

  /** A file of one line without newlines is that single line. */
  lemma OneLineFile(s: string)
    requires '\n' !in s
    ensures Split(s, '\n') == [s]
  {
  }

  /**
    A one-line file `**x**` converts to the single bold block `x`, for every
    `x`, the empty one included.
   */
  lemma BoldFile(x: string)
    requires '\n' !in x
    ensures Convert("**" + x + "**") == [Bold(x)]
  {
    var s := "**" + x + "**";
    assert s[0] == '*' && s[|s| - 1] == '*';
    assert forall k :: 0 <= k < |s| ==> s[k] == '*' || s[k] in x;
    OneLineFile(s);
    StripNoop(s);
    BoldLine(x);
    var lines := [s];
    PlainLineStep(lines, 0);
  }

  /**
    The scripts as written produce no document for `****`, where the corrected
    conversion gives one empty bold paragraph.
   */
  lemma EmptyBoldCrashes()
    ensures Convert("****") == [Bold("")]
    ensures ConvertAsWritten("****") == Failed
  {
    BoldFile("");
    assert "**" + "" + "**" == "****";
  }
}

=== FILE: numeric_utils.dfy ===
/**
  The numeric utilities of src/utils/index.js: Fahrenheit/Celsius conversion
  rounded to one decimal and a simple moving average rounded to two decimals,
  each validating its arguments in a fixed order and throwing `TypeError` or
  `RangeError`. backend/utils.js carries the same three functions word for
  word (only parameter names differ), so they are defined once here, and adds
  `sum`.

  JavaScript numbers are modelled as exact reals plus the non-finite values;
  `Math.round(y)` is `floor(y + 1/2)`, which is how it breaks ties (towards
  +Infinity).
 */
module NumericUtils {

  /** A JavaScript value as far as these functions can tell values apart. */
  datatype JsValue =
    | Num(value: real)
    | NaN
    | Infinity
    | NegInfinity
    | NotNumber  // a string, object, boolean, undefined, ...

  /** `Number.isFinite(v)`: true only for finite numbers, with no coercion. */
  predicate IsFinite(v: JsValue) {
    v.Num?
  }

  /** `Number.isInteger(v)`. */
  predicate IsInteger(v: JsValue) {
    v.Num? && v.value == v.value.Floor as real
  }

  /** An argument that is an array, or something else. */
  datatype Series = Array(items: seq<JsValue>) | NotArray

  datatype ErrorClass = TypeError | RangeError

  /** A JavaScript call either returns a value or throws an error object. */
  datatype Outcome<T> = Returns(value: T) | Throws(errorClass: ErrorClass, message: string)

  const NotFiniteMessage := "El parámetro debe ser un número finito"
  const NotArrayMessage := "El primer parámetro debe ser un array"
  const BadWindowMessage := "La ventana debe ser un entero mayor o igual a 2"
  const WindowTooLargeMessage := "La ventana no puede ser mayor que la longitud de la serie"
  const NotFiniteSeriesMessage := "Todos los elementos de la serie deben ser números finitos"
  const SumNotFiniteMessage := "Los parámetros deben ser números finitos"

  /** `Math.round(y)`: the integer nearest to `y`, ties going up. */
  function MathRound(y: real): (k: int)
    ensures y - 0.5 < k as real <= y + 0.5
  {
    (y + 0.5).Floor
  }

  /** `Math.round` is the only rounding with that property. */
  lemma MathRoundUnique(y: real, k: int)
    requires y - 0.5 < k as real <= y + 0.5
    ensures MathRound(y) == k
  {
  }

  /** A real that is a whole number of tenths (or hundredths, with 100). */
  predicate MultipleOf(r: real, scale: real) {
    (r * scale).Floor as real == r * scale
  }

  /** `Math.round(x * 10) / 10`: `x` rounded to one decimal. */
  function Round1(x: real): (r: real)
    ensures x - 0.05 < r <= x + 0.05
    ensures MultipleOf(r, 10.0)
  {
    MathRound(x * 10.0) as real / 10.0
  }

  /** `Math.round(x * 100) / 100`: `x` rounded to two decimals. */
  function Round2(x: real): (r: real)
    ensures x - 0.005 < r <= x + 0.005
    ensures MultipleOf(r, 100.0)
  {
    MathRound(x * 100.0) as real / 100.0
  }

  /** `toCelsius(f)`: `(f - 32) * 5 / 9` rounded to one decimal. */
  function ToCelsius(f: JsValue): (r: Outcome<real>)
    ensures !IsFinite(f) <==> r == Throws(TypeError, NotFiniteMessage)
    ensures IsFinite(f) ==> r.Returns?
    ensures IsFinite(f) ==>
      (f.value - 32.0) * 5.0 / 9.0 - 0.05 < r.value <= (f.value - 32.0) * 5.0 / 9.0 + 0.05
    ensures IsFinite(f) ==> MultipleOf(r.value, 10.0)
  {
    if !IsFinite(f) then Throws(TypeError, NotFiniteMessage)
    else Returns(Round1((f.value - 32.0) * 5.0 / 9.0))
  }

  /** `toFahrenheit(c)`: `c * 9 / 5 + 32` rounded to one decimal. */
  function ToFahrenheit(c: JsValue): (r: Outcome<real>)
    ensures !IsFinite(c) <==> r == Throws(TypeError, NotFiniteMessage)
    ensures IsFinite(c) ==> r.Returns?
    ensures IsFinite(c) ==>
      c.value * 9.0 / 5.0 + 32.0 - 0.05 < r.value <= c.value * 9.0 / 5.0 + 32.0 + 0.05
    ensures IsFinite(c) ==> MultipleOf(r.value, 10.0)
  {
    if !IsFinite(c) then Throws(TypeError, NotFiniteMessage)
    else Returns(Round1(c.value * 9.0 / 5.0 + 32.0))
  }

  /** The reference points of the two scales. */
  lemma ReferencePoints()
    ensures ToCelsius(Num(32.0)) == Returns(0.0)
    ensures ToCelsius(Num(212.0)) == Returns(100.0)
    ensures ToCelsius(Num(-40.0)) == Returns(-40.0)
    ensures ToCelsius(Num(100.0)) == Returns(37.8)
    ensures ToFahrenheit(Num(0.0)) == Returns(32.0)
    ensures ToFahrenheit(Num(100.0)) == Returns(212.0)
    ensures ToFahrenheit(Num(-40.0)) == Returns(-40.0)
  {
    MathRoundUnique(0.0, 0);
    MathRoundUnique(1000.0, 1000);
    MathRoundUnique(-400.0, -400);
    MathRoundUnique(3400.0 / 9.0, 378);
    MathRoundUnique(320.0, 320);
    MathRoundUnique(2120.0, 2120);
  }

  /**
    Converting to Celsius and back lands within 0.14 degrees of the start:
    0.05 of rounding in Celsius, scaled by 9/5, plus 0.05 in Fahrenheit.
   */
  lemma FahrenheitRoundTrip(f: real)
    ensures ToCelsius(Num(f)).Returns?
    ensures var c := ToCelsius(Num(f)).value;
      ToFahrenheit(Num(c)).Returns? && f - 0.14 < ToFahrenheit(Num(c)).value < f + 0.14
  {
  }

  /** Converting to Fahrenheit and back lands within 0.08 degrees of the start. */
  lemma CelsiusRoundTrip(c: real)
    ensures ToFahrenheit(Num(c)).Returns?
    ensures var f := ToFahrenheit(Num(c)).value;
      ToCelsius(Num(f)).Returns? && c - 0.08 < ToCelsius(Num(f)).value < c + 0.08
  {
  }

  /** The sum of a sequence of reals, added from the left as `reduce` does. */
  function SumOf(xs: seq<real>): real {
    if |xs| == 0 then 0.0 else SumOf(xs[..|xs| - 1]) + xs[|xs| - 1]
  }

  /** The numbers of a series whose every item is finite. */
  function Values(items: seq<JsValue>): (xs: seq<real>)
    requires forall k :: 0 <= k < |items| ==> IsFinite(items[k])
    ensures |xs| == |items|
    ensures forall k :: 0 <= k < |items| ==> items[k] == Num(xs[k])
  {
    seq(|items|, k requires 0 <= k < |items| && IsFinite(items[k]) => items[k].value)
  }

  /** The mean of each window of `w` consecutive values, rounded to two decimals. */
  function WindowMeans(xs: seq<real>, w: nat): (r: seq<real>)
    requires 1 <= w <= |xs|
    ensures |r| == |xs| - w + 1
  {
    seq(|xs| - w + 1, i requires 0 <= i < |xs| - w + 1 => Round2(SumOf(xs[i..i + w]) / w as real))
  }

  /**
    `movingAverage(series, window)`. The checks fire in this order: `series` not
    an array, `window` not an integer of at least 2, `window` longer than
    `series`, an item of `series` not a finite number. Otherwise the result
    has one entry per window position, the mean of that window rounded to two
    decimals.
   */
  function MovingAverage(series: Series, window: JsValue): (r: Outcome<seq<real>>)
    ensures series.NotArray? <==> r == Throws(TypeError, NotArrayMessage)
    ensures r == Throws(RangeError, BadWindowMessage) <==>
      series.Array? && !(IsInteger(window) && window.value >= 2.0)
    ensures r == Throws(RangeError, WindowTooLargeMessage) <==>
      series.Array? && IsInteger(window) && window.value >= 2.0
      && window.value > |series.items| as real
    ensures r == Throws(TypeError, NotFiniteSeriesMessage) <==>
      series.Array? && IsInteger(window) && 2.0 <= window.value <= |series.items| as real
      && exists k :: 0 <= k < |series.items| && !IsFinite(series.items[k])
    ensures r.Returns? ==>
      var w := window.value.Floor;
      && 2 <= w <= |series.items|
      && |r.value| == |series.items| - w + 1
      && forall i :: 0 <= i < |r.value| ==>
        r.value[i] == Round2(SumOf(Values(series.items)[i..i + w]) / w as real)
  {
    if series.NotArray? then Throws(TypeError, NotArrayMessage)
    else if !IsInteger(window) || window.value < 2.0 then Throws(RangeError, BadWindowMessage)
    else if window.value > |series.items| as real then Throws(RangeError, WindowTooLargeMessage)
    else if exists k :: 0 <= k < |series.items| && !IsFinite(series.items[k]) then
      Throws(TypeError, NotFiniteSeriesMessage)
    else Returns(WindowMeans(Values(series.items), window.value.Floor))
  }

  /**
    The loop of `movingAverage` as written: for each start position, take the
    slice, fold it with `+` from 0, divide by the window and round. It computes
    the windowed means the function above specifies.
   */
  method MovingAverageLoop(xs: seq<real>, w: nat) returns (result: seq<real>)
    requires 2 <= w <= |xs|
    ensures |result| == |xs| - w + 1
    ensures forall i :: 0 <= i < |result| ==>
      result[i] == Round2(SumOf(xs[i..i + w]) / w as real)
  {
    result := [];
    var i := 0;
    while i <= |xs| - w
      invariant 0 <= i <= |xs| - w + 1
      invariant |result| == i
      invariant forall j :: 0 <= j < i ==> result[j] == Round2(SumOf(xs[j..j + w]) / w as real)
    {
      var windowValues := xs[i..i + w];
      var sum := 0.0;
      var k := 0;
      while k < |windowValues|
        invariant 0 <= k <= |windowValues|
        invariant sum == SumOf(windowValues[..k])
      {
        assert windowValues[..k + 1][..k] == windowValues[..k];
        sum := sum + windowValues[k];
        k := k + 1;
      }
      assert windowValues[..k] == windowValues;
      result := result + [Round2(sum / w as real)];
      i := i + 1;
    }
  }

  /** Every value of `xs` lies in `[lo, hi]`. */
  ghost predicate Within(xs: seq<real>, lo: real, hi: real) {
    forall k :: 0 <= k < |xs| ==> lo <= xs[k] <= hi
  }

  lemma {:induction false} SumOfBounds(xs: seq<real>, lo: real, hi: real)
    requires Within(xs, lo, hi)
    ensures |xs| as real * lo <= SumOf(xs) <= |xs| as real * hi
  {
    if |xs| > 0 {
      var init := xs[..|xs| - 1];
      assert Within(init, lo, hi) by {
        forall k | 0 <= k < |init| ensures lo <= init[k] <= hi {
          assert init[k] == xs[k];
        }
      }
      SumOfBounds(init, lo, hi);
      assert SumOf(xs) == SumOf(init) + xs[|xs| - 1];
      assert |init| as real * lo + lo == |xs| as real * lo;
      assert |init| as real * hi + hi == |xs| as real * hi;
    }
  }

  /**
    A moving average stays inside the range of its window: if every value of
    window `i` lies in `[lo, hi]`, entry `i` lies within half a cent of it.
   */
  lemma MovingAverageWithinWindow(items: seq<JsValue>, window: JsValue, i: nat, lo: real, hi: real)
    requires MovingAverage(Array(items), window).Returns?
    requires i < |MovingAverage(Array(items), window).value|
    requires Within(Values(items)[i..i + window.value.Floor], lo, hi)
    ensures lo - 0.005 < MovingAverage(Array(items), window).value[i] <= hi + 0.005
  {
    var w := window.value.Floor;
    var xs := Values(items)[i..i + w];
    SumOfBounds(xs, lo, hi);
    MeanWithin(SumOf(xs), w as real, lo, hi);
  }

  /** A total of `w` values, each in `[lo, hi]`, has its mean in `[lo, hi]`. */
  lemma MeanWithin(total: real, w: real, lo: real, hi: real)
    requires w > 0.0 && w * lo <= total <= w * hi
    ensures lo <= total / w <= hi
  {
    assert total / w * w == total;
  }

  /**
    `sum(a, b)` from backend/utils.js: `a + b` for two finite numbers and a
    `TypeError` otherwise; zero is a right identity.
   */
  function Sum(a: JsValue, b: JsValue): (r: Outcome<real>)
    ensures r.Throws? <==> !IsFinite(a) || !IsFinite(b)
    ensures r.Throws? ==> r == Throws(TypeError, SumNotFiniteMessage)
    ensures r.Returns? ==> r.value - a.value == b.value
    ensures IsFinite(a) && b == Num(0.0) ==> r == Returns(a.value)
  {
    if !IsFinite(a) || !IsFinite(b) then Throws(TypeError, SumNotFiniteMessage)
    else Returns(a.value + b.value)
  }
}

=== FILE: server.dfy ===
/**
  The direct routes of backend/server.js that no router shadows
  (`/api/ping-simple` and `/api/echo-simple`), and the backend as a whole: one request at a time
  against the abstract database, each request answered by the handler its
  route names. Requests are served strictly one after another here.
 */
module Server {
  import opened Http
  import opened Hotel
  import Usuarios
  import Admin

  /**
    `/api/ping-simple`: `delayMs = Math.floor(Math.random() * 500)`, with the
    draw of `Math.random` as the parameter; the body is `{ mensaje: 'pong', delayMs }`.
   */
  function PingSimple(random: real): (r: Response)
    requires 0.0 <= random < 1.0
    ensures r.status == 200 && r.body.Pong?
    ensures 0 <= r.body.delayMs <= 499
    ensures r.body.delayMs as real <= random * 500.0 < r.body.delayMs as real + 1.0
  {
    Response(200, Pong((random * 500.0).Floor))
  }

  /** Every delay from 0 to 499 ms is possible: `random = d / 500` draws `d`. */
  lemma EveryDelayPossible(d: int)
    requires 0 <= d < 500
    ensures PingSimple(d as real / 500.0).body.delayMs == d
  {
    assert (d as real / 500.0) * 500.0 == d as real;
  }

  /** `/api/echo-simple`: `{ recibido: req.body ?? null }`. */
  function EchoSimple(body: Option<Json>): (r: Response)
    ensures r.status == 200 && r.body.Echo?
    ensures body.None? ==> r.body.recibido == JNull
    ensures body.Some? ==> r.body.recibido == body.value
  {
    Response(200, Echo(match body case None => JNull case Some(j) => j))
  }

  /** The requests that reach a handler able to change the database. */
  datatype Request =
    | Registrar(registro: Usuarios.RegistroRequest)
    | Reservar(reserva: Usuarios.ReservarRequest)
    | Cancelar(cancelacion: Usuarios.CancelarRequest)
    | CancelarAdmin(reservaId: Option<nat>)
    | CrearHabitacion(habitacion: Admin.RoomRequest)
    | EditarHabitacion(habitacionId: nat, edicion: Admin.RoomRequest)
    | EliminarHabitacion(eliminarId: nat)

  /**
    The handler the route selects. `hash` is bcrypt's `hash` and `fails` says
    whether the database raises on this request.
   */
  function Handle(db: Db, req: Request, hash: string -> string, fails: bool): (res: (Response, Db))
    ensures Valid(db) ==> Valid(res.1)
    ensures fails ==> res.1 == db
    ensures res.1.reservas != db.reservas ==> req.Reservar? || req.Cancelar? || req.CancelarAdmin?
    ensures res.1.rooms != db.rooms ==> req.CrearHabitacion? || req.EditarHabitacion? || req.EliminarHabitacion?
    ensures res.1.users != db.users ==> req.Registrar?
  {
    match req
    case Registrar(r) => Usuarios.Registro(db, r, hash, fails)
    case Reservar(r) => Usuarios.Reservar(db, r, fails)
    case Cancelar(r) => Usuarios.Cancelar(db, r, fails)
    case CancelarAdmin(id) => Admin.CancelarReservaAdmin(db, id, fails)
    case CrearHabitacion(r) => Admin.CrearHabitacion(db, r, fails)
    case EditarHabitacion(id, r) => Admin.EditarHabitacion(db, id, r, fails)
    case EliminarHabitacion(id) => Admin.EliminarHabitacion(db, id, fails)
  }

  /** Serves `reqs` in order; `faults[k]` says whether the database raises on request `k`. */
  function Run(db: Db, reqs: seq<Request>, hash: string -> string, faults: seq<bool>): (r: (seq<Response>, Db))
    requires |faults| == |reqs|
    ensures |r.0| == |reqs|
    decreases |reqs|
  {
    if |reqs| == 0 then ([], db)
    else
      var (first, db1) := Handle(db, reqs[0], hash, faults[0]);
      var (rest, db2) := Run(db1, reqs[1..], hash, faults[1..]);
      ([first] + rest, db2)
  }

  /**
    From a valid state, every sequence of requests leaves a valid state: in
    particular no room is ever booked twice for the same night while requests
    are served one at a time.
   */
  lemma {:induction false} RunPreservesValid(db: Db, reqs: seq<Request>, hash: string -> string, faults: seq<bool>)
    requires |faults| == |reqs|
    requires Valid(db)
    ensures Valid(Run(db, reqs, hash, faults).1)
    decreases |reqs|
  {
    if |reqs| > 0 {
      var db1 := Handle(db, reqs[0], hash, faults[0]).1;
      RunPreservesValid(db1, reqs[1..], hash, faults[1..]);
    }
  }

  /** Any run from the freshly seeded database ends without a double booking. */
  lemma NoDoubleBookingEver(reqs: seq<Request>, hash: string -> string, faults: seq<bool>)
    requires |faults| == |reqs|
    ensures NoDoubleBooking(Run(Seeded, reqs, hash, faults).1.reservas)
  {
    SeededValid();
    RunPreservesValid(Seeded, reqs, hash, faults);
  }
}

=== FILE: sorting.dfy ===
/**
  A stable insertion sort by a caller-supplied total preorder. It stands for
  SQL `ORDER BY`: the database promises only that the rows come out as a
  permutation of the selected rows, sorted by the key.
 */
module Sorting {

  /** `le` relates every pair one way or the other and is transitive. */
  ghost predicate TotalPreorder<T(!new)>(le: (T, T) -> bool) {
    && (forall a, b :: le(a, b) || le(b, a))
    && (forall a, b, c :: le(a, b) && le(b, c) ==> le(a, c))
  }

  ghost predicate Sorted<T>(s: seq<T>, le: (T, T) -> bool) {
    forall i, j :: 0 <= i < j < |s| ==> le(s[i], s[j])
  }

  /** Inserts `x` before the first element it precedes. */
  function Insert<T(!new)>(x: T, s: seq<T>, le: (T, T) -> bool): (r: seq<T>)
    requires TotalPreorder(le)
    requires Sorted(s, le)
    ensures Sorted(r, le)
    ensures multiset(r) == multiset(s) + multiset{x}
  {
    if |s| == 0 then [x]
    else if le(x, s[0]) then [x] + s
    else
      var rest := Insert(x, s[1..], le);
      assert s == [s[0]] + s[1..];
      HeadPrecedesInsert(x, s, rest, le);
      [s[0]] + rest
  }

  /** When `x` goes after the head, the head precedes everything the insertion into the tail yields. */
  lemma HeadPrecedesInsert<T(!new)>(x: T, s: seq<T>, rest: seq<T>, le: (T, T) -> bool)
    requires TotalPreorder(le) && Sorted(s, le)
    requires |s| > 0 && !le(x, s[0])
    requires multiset(rest) == multiset(s[1..]) + multiset{x}
    ensures forall k :: 0 <= k < |rest| ==> le(s[0], rest[k])
  {
    forall k | 0 <= k < |rest|
      ensures le(s[0], rest[k])
    {
      var y := rest[k];
      assert y in multiset(rest);
      if y != x {
        assert y in multiset(s[1..]);
        var j :| 0 <= j < |s[1..]| && s[1..][j] == y;
        assert s[j + 1] == y;
      }
    }
  }

  /** Sorts `s` by `le`: the result is a sorted permutation of `s`. */
  function SortBy<T(!new)>(s: seq<T>, le: (T, T) -> bool): (r: seq<T>)
    requires TotalPreorder(le)
    ensures Sorted(r, le)
    ensures multiset(r) == multiset(s)
    ensures |r| == |s|
  {
    if |s| == 0 then []
    else
      assert s == [s[0]] + s[1..];
      var r := Insert(s[0], SortBy(s[1..], le), le);
      assert |r| == |multiset(r)|;
      r
  }

  /** Every element of a sorted permutation comes from the input, and the converse. */
  lemma SortByMembers<T(!new)>(s: seq<T>, le: (T, T) -> bool)
    requires TotalPreorder(le)
    ensures forall y :: y in SortBy(s, le) <==> y in s
  {
    var r := SortBy(s, le);
    assert forall y :: y in r <==> y in multiset(r);
    assert forall y :: y in s <==> y in multiset(s);
  }
}

=== FILE: text.dfy ===
/**
  String primitives shared by the rest of the model: the two whitespace
  classes (Python's `str.isspace` and the JavaScript regular-expression class
  `\s`), Python's `str.strip`, `str.split(sep)` and `sep.join(parts)`, and the
  lexicographic order JavaScript uses for `<` on strings.

  Strings are sequences of Unicode scalar values. JavaScript compares strings
  by UTF-16 code units; the two orders agree on every string without
  characters above U+FFFF, which includes every ISO date.
 */
module Text {

  /** Python's `str.isspace` for one character. */
  predicate IsPySpace(c: char) {
    || ('\U{09}' <= c <= '\U{0D}')
    || ('\U{1C}' <= c <= '\U{20}')
    || c == '\U{85}' || c == '\U{A0}' || c == '\U{1680}'
    || ('\U{2000}' <= c <= '\U{200A}')
    || c == '\U{2028}' || c == '\U{2029}' || c == '\U{202F}'
    || c == '\U{205F}' || c == '\U{3000}'
  }

  /** The JavaScript regular-expression class `\s`. */
  predicate IsJsSpace(c: char) {
    || ('\U{09}' <= c <= '\U{0D}')
    || c == ' ' || c == '\U{A0}' || c == '\U{1680}'
    || ('\U{2000}' <= c <= '\U{200A}')
    || c == '\U{2028}' || c == '\U{2029}' || c == '\U{202F}'
    || c == '\U{205F}' || c == '\U{3000}' || c == '\U{FEFF}'
  }

  /**
    JavaScript `s.length`: the number of UTF-16 code units, two for each
    character above U+FFFF.
   */
  function JsLength(s: string): (n: nat)
    ensures |s| <= n <= 2 * |s|
  {
    if |s| == 0 then 0 else (if s[0] > '\U{FFFF}' then 2 else 1) + JsLength(s[1..])
  }

  /** `.length` adds up over concatenation. */
  lemma {:induction false} JsLengthAppend(a: string, b: string)
    ensures JsLength(a + b) == JsLength(a) + JsLength(b)
  {
    if |a| == 0 {
      assert a + b == b;
    } else {
      assert (a + b)[0] == a[0];
      assert (a + b)[1..] == a[1..] + b;
      JsLengthAppend(a[1..], b);
    }
  }

  /** One character is one code unit, or a surrogate pair when it lies above U+FFFF. */
  lemma JsLengthChar(c: char)
    ensures JsLength([c]) == if c > '\U{FFFF}' then 2 else 1
  {
  }

  /** `s` ends with `suffix` (Python `str.endswith`). Prefixes use Dafny's `<=`. */
  predicate EndsWith(s: string, suffix: string) {
    |suffix| <= |s| && s[|s| - |suffix|..] == suffix
  }

  /** Python `s.rstrip()`. */
  function TrimEnd(s: string): string {
    if |s| > 0 && IsPySpace(s[|s| - 1]) then TrimEnd(s[..|s| - 1]) else s
  }

  lemma TrimEndSpec(s: string)
    ensures |TrimEnd(s)| <= |s| && TrimEnd(s) == s[..|TrimEnd(s)|]
    ensures forall k :: |TrimEnd(s)| <= k < |s| ==> IsPySpace(s[k])
    ensures |TrimEnd(s)| == 0 || !IsPySpace(TrimEnd(s)[|TrimEnd(s)| - 1])
  {
    if |s| > 0 && IsPySpace(s[|s| - 1]) {
      TrimEndSpec(s[..|s| - 1]);
    }
  }

  /** Number of whitespace characters at the start of `s`. */
  function LeadingSpace(s: string): nat {
    if |s| > 0 && IsPySpace(s[0]) then 1 + LeadingSpace(s[1..]) else 0
  }

  lemma LeadingSpaceSpec(s: string)
    ensures LeadingSpace(s) <= |s|
    ensures forall k :: 0 <= k < LeadingSpace(s) ==> IsPySpace(s[k])
    ensures LeadingSpace(s) == |s| || !IsPySpace(s[LeadingSpace(s)])
  {
    if |s| > 0 && IsPySpace(s[0]) {
      LeadingSpaceSpec(s[1..]);
    }
  }

  /**
    Python `s.strip()`: the slice of `s` left after removing every leading and
    trailing whitespace character.
   */
  function Strip(s: string): string {
    LeadingSpaceSpec(s);
    TrimEnd(s[LeadingSpace(s)..])
  }

  /**
    What `Strip` keeps: the slice of `s` that starts after the leading
    whitespace, is followed only by whitespace, and begins and ends with a
    non-whitespace character.
   */
  lemma StripSpec(s: string)
    ensures LeadingSpace(s) + |Strip(s)| <= |s|
    ensures Strip(s) == s[LeadingSpace(s)..LeadingSpace(s) + |Strip(s)|]
    ensures forall k :: LeadingSpace(s) + |Strip(s)| <= k < |s| ==> IsPySpace(s[k])
    ensures |Strip(s)| == 0 || (!IsPySpace(Strip(s)[0]) && !IsPySpace(Strip(s)[|Strip(s)| - 1]))
  {
    LeadingSpaceSpec(s);
    StripFacts(s, LeadingSpace(s), Strip(s));
  }

  lemma StripFacts(s: string, a: nat, r: string)
    requires a <= |s| && r == TrimEnd(s[a..])
    requires a == |s| || !IsPySpace(s[a])
    ensures a + |r| <= |s| && r == s[a..a + |r|]
    ensures forall k :: a + |r| <= k < |s| ==> IsPySpace(s[k])
    ensures |r| == 0 || (!IsPySpace(r[0]) && !IsPySpace(r[|r| - 1]))
  {
    var t := s[a..];
    TrimEndSpec(t);
    assert forall k :: a + |r| <= k < |s| ==> s[k] == t[k - a];
    if |r| > 0 {
      assert r[0] == t[0] == s[a];
    }
  }

  /** Stripping a string that already has no whitespace at either end changes nothing. */
  lemma StripNoop(s: string)
    requires |s| == 0 || (!IsPySpace(s[0]) && !IsPySpace(s[|s| - 1]))
    ensures Strip(s) == s
  {
  }

  /** Stripping is idempotent. */
  lemma StripIdempotent(s: string)
    ensures Strip(Strip(s)) == Strip(s)
  {
    StripSpec(s);
    StripNoop(Strip(s));
  }

  /** Index of the first occurrence of `c` in `s`. */
  function IndexOf(s: string, c: char): (k: nat)
    requires c in s
    ensures k < |s| && s[k] == c && c !in s[..k]
  {
    if s[0] == c then 0 else 1 + IndexOf(s[1..], c)
  }

  /** An occurrence with no earlier occurrence is the first one. */
  lemma IndexOfFirst(s: string, c: char, j: nat)
    requires j < |s| && s[j] == c && c !in s[..j]
    ensures IndexOf(s, c) == j
  {
  }

  /** Number of occurrences of `c` in `s`. */
  function Count(s: string, c: char): (n: nat)
    ensures n == 0 <==> c !in s
    ensures n <= |s|
  {
    if |s| == 0 then 0 else (if s[0] == c then 1 else 0) + Count(s[1..], c)
  }

  lemma CountAppend(a: string, b: string, c: char)
    ensures Count(a + b, c) == Count(a, c) + Count(b, c)
  {
    if |a| > 0 {
      assert (a + b)[0] == a[0];
      assert (a + b)[1..] == a[1..] + b;
      CountAppend(a[1..], b, c);
    } else {
      assert a + b == b;
    }
  }

  /**
    Python `s.split(sep)` with an explicit one-character separator: the pieces
    between consecutive separators, so there is always one piece more than
    there are separators.
   */
  function Split(s: string, sep: char): (parts: seq<string>)
    ensures |parts| == Count(s, sep) + 1
    ensures forall k :: 0 <= k < |parts| ==> sep !in parts[k]
    decreases |s|
  {
    if sep !in s then [s]
    else
      var k := IndexOf(s, sep);
      assert s == s[..k] + [sep] + s[k + 1..];
      CountAppend(s[..k] + [sep], s[k + 1..], sep);
      CountAppend(s[..k], [sep], sep);
      [s[..k]] + Split(s[k + 1..], sep)
  }

  /** Python `sep.join(parts)`. */
  function Join(parts: seq<string>, sep: char): string {
    if |parts| == 0 then ""
    else if |parts| == 1 then parts[0]
    else parts[0] + [sep] + Join(parts[1..], sep)
  }

  /** Joining the pieces of a split gives back the original string. */
  lemma {:induction false} JoinSplit(s: string, sep: char)
    ensures Join(Split(s, sep), sep) == s
    decreases |s|
  {
    if sep in s {
      var k := IndexOf(s, sep);
      var rest := Split(s[k + 1..], sep);
      JoinSplit(s[k + 1..], sep);
      assert Split(s, sep) == [s[..k]] + rest;
      assert (([s[..k]] + rest)[1..]) == rest;
      assert s == s[..k] + [sep] + s[k + 1..];
    }
  }

  /**
    Splitting a join of separator-free pieces gives back the pieces: together
    with JoinSplit, `Split` and `Join` are mutually inverse.
   */
  lemma {:induction false} SplitJoin(parts: seq<string>, sep: char)
    requires |parts| >= 1
    requires forall k :: 0 <= k < |parts| ==> sep !in parts[k]
    ensures Split(Join(parts, sep), sep) == parts
  {
    if |parts| > 1 {
      SplitJoin(parts[1..], sep);
      SplitCons(parts[0], sep, Join(parts[1..], sep));
      assert parts == [parts[0]] + parts[1..];
    }
  }

  /** A separator-free piece followed by a separator splits off as the first piece. */
  lemma SplitCons(p: string, sep: char, tail: string)
    requires sep !in p
    ensures Split(p + [sep] + tail, sep) == [p] + Split(tail, sep)
  {
    var s := p + [sep] + tail;
    assert s[|p|] == sep;
    assert s[..|p|] == p;
    IndexOfFirst(s, sep, |p|);
    assert s[|p| + 1..] == tail;
  }

  /**
    JavaScript `a < b` on strings: lexicographic comparison, where a proper
    prefix is smaller than the string it begins.
   */
  predicate StrLt(a: string, b: string)
    decreases |a|
  {
    if |a| == 0 then |b| > 0
    else if |b| == 0 then false
    else a[0] < b[0] || (a[0] == b[0] && StrLt(a[1..], b[1..]))
  }

  /** JavaScript `a <= b` on strings, which the language defines as `!(b < a)`. */
  predicate StrLe(a: string, b: string) {
    !StrLt(b, a)
  }

  lemma {:induction false} StrLtIrreflexive(a: string)
    ensures !StrLt(a, a)
    decreases |a|
  {
    if |a| > 0 {
      StrLtIrreflexive(a[1..]);
    }
  }

  lemma {:induction false} StrLtTransitive(a: string, b: string, c: string)
    requires StrLt(a, b) && StrLt(b, c)
    ensures StrLt(a, c)
    decreases |a|
  {
    if |a| > 0 && |b| > 0 && |c| > 0 && a[0] == b[0] && b[0] == c[0] {
      StrLtTransitive(a[1..], b[1..], c[1..]);
    }
  }

  /** Any two strings are equal or ordered one way or the other. */
  lemma {:induction false} StrLtTrichotomy(a: string, b: string)
    ensures StrLt(a, b) || a == b || StrLt(b, a)
    decreases |a|
  {
    if |a| > 0 && |b| > 0 && a[0] == b[0] {
      StrLtTrichotomy(a[1..], b[1..]);
      if a[1..] == b[1..] {
        assert a == [a[0]] + a[1..] && b == [b[0]] + b[1..];
      }
    }
  }

  /** `StrLe` is a total order: the facts the sorting and overlap proofs use. */
  lemma StrLeTotalOrder(a: string, b: string, c: string)
    ensures StrLe(a, a)
    ensures StrLe(a, b) || StrLe(b, a)
    ensures StrLe(a, b) && StrLe(b, a) ==> a == b
    ensures StrLe(a, b) && StrLe(b, c) ==> StrLe(a, c)
  {
    StrLtIrreflexive(a);
    StrLtTrichotomy(a, b);
    StrLtTrichotomy(b, c);
    StrLtTrichotomy(a, c);
    if StrLt(b, a) && StrLt(a, b) {
      StrLtTransitive(a, b, a);
      StrLtIrreflexive(a);
    }
    if StrLe(a, b) && StrLe(b, c) && StrLt(c, a) {
      if StrLt(a, b) {
        StrLtTransitive(c, a, b);
      }
      if StrLt(b, c) {
        StrLtTransitive(a, b, c);
        StrLtTransitive(a, c, a);
        StrLtIrreflexive(a);
      }
    }
  }
}

=== FILE: usuarios.dfy ===
/**
  The user-facing handlers of backend/controllers/usuariosController.js:
  registration, login, availability search, booking, cancellation and "my
  reservations". backend/server.js also declares the availability, booking,
  cancellation and "my reservations" paths as direct routes, but it mounts
  the router of backend/routes/usuarios.js on `/api` first (server.js:25),
  and that router answers the same four paths with these handlers; the
  direct routes are never reached, so only the controller is modelled.

  Every handler takes `fails`, which stands for the database raising on every
  query of the request: the handler then answers 500 and the state is left
  as it was.
 */
module Usuarios {
  import opened Text
  import opened Http
  import opened Sorting
  import opened Hotel

  // ---------------------------------------------------------------------
  // Registration
  // ---------------------------------------------------------------------

  const MissingFields := "Todos los campos son obligatorios."
  const BadEmail := "El formato del correo electrónico no es válido."
  const ShortPassword := "La contraseña debe tener al menos 5 caracteres."
  const NoLowercase := "La contraseña debe contener al menos una letra minúscula."
  const NoSpecial := "La contraseña debe contener al menos un carácter especial."
  const PasswordMismatch := "Las contraseñas no coinciden."
  const EmailTaken := "El correo electrónico ya está registrado."
  const Registered := "¡Registro exitoso! Ya puedes iniciar sesión."
  const SystemError := "Error del sistema. Intente más tarde."

  /** The column default of `usuarios.rol`. */
  const DefaultRole := "usuario"

  datatype RegistroRequest = RegistroRequest(
    nombre: Option<string>,
    correo: Option<string>,
    contrasena: Option<string>,
    confirmContrasena: Option<string>)

  /** A run of the regular-expression class `[^@\s]+`. */
  ghost predicate Segment(t: string) {
    |t| > 0 && forall k :: 0 <= k < |t| ==> t[k] != '@' && !IsJsSpace(t[k])
  }

  /** `/^[^@\s]+@[^@\s]+\.[^@\s]+$/.test(s)`, read as the regular expression reads. */
  ghost predicate EmailRegexMatches(s: string) {
    exists at, dot :: 0 <= at < dot < |s| && s[at] == '@' && s[dot] == '.'
      && Segment(s[..at]) && Segment(s[at + 1..dot]) && Segment(s[dot + 1..])
  }

  predicate NoJsSpace(s: string) {
    forall k :: 0 <= k < |s| ==> !IsJsSpace(s[k])
  }

  /** `d` has a '.' that is neither its first nor its last character. */
  predicate HasInnerDot(d: string) {
    exists k :: 0 < k < |d| - 1 && d[k] == '.'
  }

  /**
    The e-mail check, stated directly: no whitespace, exactly one '@' with
    something before it, and a domain with a '.' inside it.
   */
  predicate EmailOk(s: string) {
    && NoJsSpace(s)
    && Count(s, '@') == 1
    && IndexOf(s, '@') > 0
    && HasInnerDot(s[IndexOf(s, '@') + 1..])
  }

  lemma CountOne(s: string, c: char, at: nat)
    requires Count(s, c) == 1 && at < |s| && s[at] == c
    ensures c !in s[..at] && c !in s[at + 1..]
  {
    assert s == s[..at] + [c] + s[at + 1..];
    CountAppend(s[..at] + [c], s[at + 1..], c);
    CountAppend(s[..at], [c], c);
  }

  lemma CountNone(t: string, c: char)
    requires forall k :: 0 <= k < |t| ==> t[k] != c
    ensures Count(t, c) == 0
  {
    assert c !in t;
  }

  /** The direct reading of the e-mail check agrees with the regular expression. */
  lemma EmailOkMatchesRegex(s: string)
    ensures EmailOk(s) <==> EmailRegexMatches(s)
  {
    if EmailRegexMatches(s) {
      var at, dot :| 0 <= at < dot < |s| && s[at] == '@' && s[dot] == '.'
        && Segment(s[..at]) && Segment(s[at + 1..dot]) && Segment(s[dot + 1..]);
      RegexGivesEmailOk(s, at, dot);
    }
    if EmailOk(s) {
      EmailOkGivesRegex(s);
    }
  }

  lemma RegexGivesEmailOk(s: string, at: nat, dot: nat)
    requires at < dot < |s| && s[at] == '@' && s[dot] == '.'
    requires Segment(s[..at]) && Segment(s[at + 1..dot]) && Segment(s[dot + 1..])
    ensures EmailOk(s)
  {
    var a, b, c := s[..at], s[at + 1..dot], s[dot + 1..];
    assert s == a + (['@'] + (b + (['.'] + c)));
    forall k | 0 <= k < |s|
      ensures !IsJsSpace(s[k])
    {
      if k < at { assert s[k] == a[k]; }
      else if at < k < dot { assert s[k] == b[k - at - 1]; }
      else if dot < k { assert s[k] == c[k - dot - 1]; }
    }
    CountNone(a, '@');
    CountNone(b, '@');
    CountNone(c, '@');
    CountAppend(['.'], c, '@');
    CountAppend(b, ['.'] + c, '@');
    CountAppend(['@'], b + (['.'] + c), '@');
    CountAppend(a, ['@'] + (b + (['.'] + c)), '@');
    IndexOfFirst(s, '@', at);
    var d := s[at + 1..];
    assert d[dot - at - 1] == '.';
  }

  lemma EmailOkGivesRegex(s: string)
    requires EmailOk(s)
    ensures EmailRegexMatches(s)
  {
    var at := IndexOf(s, '@');
    var d := s[at + 1..];
    var k :| 0 < k < |d| - 1 && d[k] == '.';
    var dot := at + 1 + k;
    CountOne(s, '@', at);
    assert s[at + 1..dot] == d[..k];
    assert s[dot + 1..] == d[k + 1..];
    assert Segment(s[..at]);
    assert Segment(s[at + 1..dot]);
    assert Segment(s[dot + 1..]);
  }

  /** `/[a-z]/.test(p)`. */
  predicate HasLowercase(p: string) {
    exists k :: 0 <= k < |p| && 'a' <= p[k] <= 'z'
  }

  predicate IsAsciiAlnum(c: char) {
    ('A' <= c <= 'Z') || ('a' <= c <= 'z') || ('0' <= c <= '9')
  }

  /** `/[^A-Za-z0-9]/.test(p)`. */
  predicate HasSpecial(p: string) {
    exists k :: 0 <= k < |p| && !IsAsciiAlnum(p[k])
  }

  predicate AllFields(req: RegistroRequest) {
    Present(req.nombre) && Present(req.correo) && Present(req.contrasena) && Present(req.confirmContrasena)
  }

  /**
    The registration checks, in the order the handler runs them: the first
    one that fails decides the 400 message; `None` when all pass.
   */
  function ValidateRegistro(req: RegistroRequest): (r: Option<string>)
    ensures r == Some(MissingFields) <==> !AllFields(req)
    ensures r == Some(BadEmail) <==> (AllFields(req) && !EmailOk(req.correo.value))
    ensures r == Some(ShortPassword) <==>
      (AllFields(req) && EmailOk(req.correo.value) && JsLength(req.contrasena.value) < 5)
    ensures r == Some(NoLowercase) <==>
      (AllFields(req) && EmailOk(req.correo.value) && JsLength(req.contrasena.value) >= 5
       && !HasLowercase(req.contrasena.value))
    ensures r == Some(NoSpecial) <==>
      (AllFields(req) && EmailOk(req.correo.value) && JsLength(req.contrasena.value) >= 5
       && HasLowercase(req.contrasena.value) && !HasSpecial(req.contrasena.value))
    ensures r == Some(PasswordMismatch) <==>
      (AllFields(req) && EmailOk(req.correo.value) && JsLength(req.contrasena.value) >= 5
       && HasLowercase(req.contrasena.value) && HasSpecial(req.contrasena.value)
       && req.contrasena.value != req.confirmContrasena.value)
    ensures r.None? <==>
      (AllFields(req) && EmailOk(req.correo.value) && JsLength(req.contrasena.value) >= 5
       && HasLowercase(req.contrasena.value) && HasSpecial(req.contrasena.value)
       && req.contrasena.value == req.confirmContrasena.value)
  {
    if !AllFields(req) then Some(MissingFields)
    else if !EmailOk(req.correo.value) then Some(BadEmail)
    else if JsLength(req.contrasena.value) < 5 then Some(ShortPassword)
    else if !HasLowercase(req.contrasena.value) then Some(NoLowercase)
    else if !HasSpecial(req.contrasena.value) then Some(NoSpecial)
    else if req.contrasena.value != req.confirmContrasena.value then Some(PasswordMismatch)
    else None
  }

  function RegistroOf(correo: string, p: string, confirm: string): RegistroRequest {
    RegistroRequest(Some("Juan Pérez"), Some(correo), Some(p), Some(confirm))
  }

  /** Three whitespace-free, '@'-free segments joined as `a@b.c` make a well-formed address. */
  lemma SegmentsMakeAddress(a: string, b: string, c: string)
    requires Segment(a) && Segment(b) && Segment(c)
    ensures EmailOk(a + "@" + b + "." + c)
  {
    var s := a + "@" + b + "." + c;
    assert s[..|a|] == a && s[|a| + 1..|a| + 1 + |b|] == b && s[|a| + |b| + 2..] == c;
    RegexGivesEmailOk(s, |a|, |a| + 1 + |b|);
  }

  /** The address the controller's unit tests register with. */
  lemma TestAddressIsWellFormed()
    ensures EmailOk("juan@test.com")
  {
    assert Segment("juan") && Segment("test") && Segment("com");
    SegmentsMakeAddress("juan", "test", "com");
    assert "juan" + "@" + "test" + "." + "com" == "juan@test.com";
  }

  lemma {:induction false} AsciiLength(s: string)
    requires forall k :: 0 <= k < |s| ==> s[k] < '\U{80}'
    ensures JsLength(s) == |s|
  {
    if |s| > 0 {
      AsciiLength(s[1..]);
    }
  }

  lemma AcceptedPasswordFacts()
    ensures JsLength("Test123!") == 8 && HasLowercase("Test123!") && HasSpecial("Test123!")
  {
    AsciiLength("Test123!");
    assert "Test123!"[1] == 'e' && !IsAsciiAlnum("Test123!"[7]);
  }

  lemma AlphanumericPasswordFacts()
    ensures JsLength("Test123") == 7 && HasLowercase("Test123") && !HasSpecial("Test123")
  {
    AsciiLength("Test123");
    assert "Test123"[1] == 'e';
    assert forall k :: 0 <= k < |"Test123"| ==> IsAsciiAlnum("Test123"[k]);
  }

  lemma UppercasePasswordFacts()
    ensures JsLength("TEST123!") == 8 && !HasLowercase("TEST123!")
  {
    AsciiLength("TEST123!");
    var p := "TEST123!";
    forall k | 0 <= k < |p|
      ensures !('a' <= p[k] <= 'z')
    {
      assert p[k] in "TEST123!";
    }
  }

  /**
    The passwords of the controller's unit tests, with any well-formed address
    (such as the tests' "juan@test.com"): the accepted one and each rejection.
   */
  lemma AcceptedRegistro(e: string, p: string)
    requires EmailOk(e) && p == "Test123!"
    ensures ValidateRegistro(RegistroOf(e, p, p)).None?
  {
    AcceptedPasswordFacts();
  }

  lemma MissingPasswordRejected(e: string)
    requires EmailOk(e)
    ensures ValidateRegistro(RegistroRequest(Some("Juan Pérez"), Some(e), None, None)) == Some(MissingFields)
  {
  }

  lemma ShortPasswordRejected(e: string, p: string)
    requires EmailOk(e) && p == "123"
    ensures ValidateRegistro(RegistroOf(e, p, p)) == Some(ShortPassword)
  {
    AsciiLength(p);
  }

  lemma UppercasePasswordRejected(e: string, p: string)
    requires EmailOk(e) && p == "TEST123!"
    ensures ValidateRegistro(RegistroOf(e, p, p)) == Some(NoLowercase)
  {
    UppercasePasswordFacts();
  }

  lemma AlphanumericPasswordRejected(e: string, p: string)
    requires EmailOk(e) && p == "Test123"
    ensures ValidateRegistro(RegistroOf(e, p, p)) == Some(NoSpecial)
  {
    AlphanumericPasswordFacts();
  }

  lemma MismatchRejected(e: string, p: string, q: string)
    requires EmailOk(e) && p == "Test123!" && q == "Different123!"
    ensures ValidateRegistro(RegistroOf(e, p, q)) == Some(PasswordMismatch)
  {
    AcceptedPasswordFacts();
    assert p[0] != q[0];
  }

  lemma MalformedAddressRejected()
    ensures ValidateRegistro(RegistroOf("invalid-email", "Test123!", "Test123!")) == Some(BadEmail)
  {
    assert forall k :: 0 <= k < |"invalid-email"| ==> "invalid-email"[k] != '@';
    assert '@' !in "invalid-email";
  }

  /**
    `registroUsuario`: validation first, touching nothing; then the address
    must be new; then exactly one user is added, holding `hash(contrasena)`.
   */
  function Registro(db: Db, req: RegistroRequest, hash: string -> string, fails: bool): (res: (Response, Db))
    ensures ValidateRegistro(req).Some? ==> res == (Error(400, ValidateRegistro(req).value), db)
    ensures ValidateRegistro(req).None? && fails ==> res == (Error(500, SystemError), db)
    ensures ValidateRegistro(req).None? && !fails && req.correo.value in db.users ==>
      res == (Error(400, EmailTaken), db)
    ensures res.0.status == 200 <==>
      ValidateRegistro(req).None? && !fails && req.correo.value !in db.users
    ensures res.0.status == 200 ==>
      && res.0 == Success(Registered)
      && res.1 == db.(
        users := db.users[req.correo.value :=
          User(db.nextUserId, req.nombre.value, req.correo.value, hash(req.contrasena.value), DefaultRole)],
        nextUserId := db.nextUserId + 1)
      && |res.1.users| == |db.users| + 1
    ensures res.0.status != 200 ==> res.1 == db
    ensures Valid(db) ==> Valid(res.1)
  {
    match ValidateRegistro(req)
    case Some(m) => (Error(400, m), db)
    case None =>
      var correo := req.correo.value;
      if fails then (Error(500, SystemError), db)
      else if correo in db.users then (Error(400, EmailTaken), db)
      else
        var u := User(db.nextUserId, req.nombre.value, correo, hash(req.contrasena.value), DefaultRole);
        (Success(Registered), db.(users := db.users[correo := u], nextUserId := db.nextUserId + 1))
  }

  // ---------------------------------------------------------------------
  // Login
  // ---------------------------------------------------------------------

  const LoginMissing := "Por favor, complete todos los campos."
  const BadCredentials := "Correo o contraseña incorrecta."

  datatype LoginRequest = LoginRequest(correo: Option<string>, contrasena: Option<string>)

  /**
    `loginUsuario`. `compare` is `bcrypt.compare(plain, hashed)` and `sign` is
    `jwt.sign(claims, secret, { expiresIn: '2h' })`. An unknown address and a
    wrong password give the same 401 answer.
   */
  function Login(db: Db, req: LoginRequest, compare: (string, string) -> bool, sign: Claims -> string,
                 fails: bool): (r: Response)
    ensures !Present(req.correo) || !Present(req.contrasena) ==> r == Error(400, LoginMissing)
    ensures Present(req.correo) && Present(req.contrasena) && fails ==> r == Error(500, SystemError)
    ensures r.status == 200 <==>
      && Present(req.correo) && Present(req.contrasena) && !fails
      && req.correo.value in db.users
      && compare(req.contrasena.value, db.users[req.correo.value].contrasena)
    ensures r.status == 200 ==>
      var u := db.users[req.correo.value];
      r == Response(200, LoginOk(Claims(u.id, u.nombre, u.rol), sign(Claims(u.id, u.nombre, u.rol))))
    ensures Present(req.correo) && Present(req.contrasena) && !fails && r.status != 200 ==>
      r == Error(401, BadCredentials)
  {
    if !Present(req.correo) || !Present(req.contrasena) then Error(400, LoginMissing)
    else if fails then Error(500, SystemError)
    else if req.correo.value in db.users then
      var u := db.users[req.correo.value];
      if compare(req.contrasena.value, u.contrasena) then
        var claims := Claims(u.id, u.nombre, u.rol);
        Response(200, LoginOk(claims, sign(claims)))
      else Error(401, BadCredentials)
    else Error(401, BadCredentials)
  }

  /** An unknown address cannot be told apart from a wrong password. */
  lemma UnknownEmailLooksLikeWrongPassword(
    db: Db, unknown: LoginRequest, wrong: LoginRequest,
    compare: (string, string) -> bool, sign: Claims -> string)
    requires Present(unknown.correo) && Present(unknown.contrasena) && unknown.correo.value !in db.users
    requires Present(wrong.correo) && Present(wrong.contrasena) && wrong.correo.value in db.users
    requires !compare(wrong.contrasena.value, db.users[wrong.correo.value].contrasena)
    ensures Login(db, unknown, compare, sign, false) == Login(db, wrong, compare, sign, false)
    ensures Login(db, unknown, compare, sign, false).status == 401
  {
  }

  /**
    Registering and then logging in with the same address and password
    succeeds, provided `compare` accepts every password against its own hash
    (what bcrypt promises), and the token signs the new user's claims.
   */
  lemma RegisterThenLogin(db: Db, req: RegistroRequest, hash: string -> string,
                          compare: (string, string) -> bool, sign: Claims -> string)
    requires forall p :: compare(p, hash(p))
    requires Registro(db, req, hash, false).0.status == 200
    ensures var db' := Registro(db, req, hash, false).1;
      var r := Login(db', LoginRequest(req.correo, req.contrasena), compare, sign, false);
      r.status == 200 && r.body.usuario == Claims(db.nextUserId, req.nombre.value, DefaultRole)
  {
    assert compare(req.contrasena.value, hash(req.contrasena.value));
  }

  // ---------------------------------------------------------------------
  // Availability and booking
  // ---------------------------------------------------------------------

  const DatesRequired := "Las fechas de entrada y salida son requeridas."
  const DatesOrder := "La fecha de salida debe ser posterior a la fecha de entrada."
  const SearchError := "Error al buscar habitaciones. Intente más tarde."
  const SelectRoom := "Debes seleccionar una habitación disponible para reservar."
  const AlreadyBooked := "La habitación seleccionada ya está reservada para esas fechas."
  const Booked := "¡Reserva registrada con éxito!"
  const BookingError := "Error al registrar la reserva. Por favor, inténtelo de nuevo."
  const InvalidAction := "Acción no válida."

  /** Both dates present and the stay ends after it starts. */
  predicate DatesOk(inicio: Option<string>, fin: Option<string>) {
    Present(inicio) && Present(fin) && StrLt(inicio.value, fin.value)
  }

  /**
    The date checks every booking and search handler runs first: missing
    dates, then `fecha_fin <= fecha_inicio`.
   */
  function CheckDates(inicio: Option<string>, fin: Option<string>): (r: Option<Response>)
    ensures r == Some(Error(400, DatesRequired)) <==> !Present(inicio) || !Present(fin)
    ensures r == Some(Error(400, DatesOrder)) <==>
      Present(inicio) && Present(fin) && StrLe(fin.value, inicio.value)
    ensures r.None? <==> DatesOk(inicio, fin)
  {
    if !Present(inicio) || !Present(fin) then Some(Error(400, DatesRequired))
    else if StrLe(fin.value, inicio.value) then Some(Error(400, DatesOrder))
    else None
  }

  /** The type filter: it applies only when a non-empty type is given. */
  predicate TypeMatches(room: Room, tipo: Option<string>) {
    !Present(tipo) || room.tipo == tipo.value
  }

  /** The rooms the search selects, in table order. */
  function Candidates(rooms: seq<Room>, tipo: Option<string>): (c: seq<Room>)
    ensures forall room :: room in c <==> room in rooms && TypeMatches(room, tipo)
    ensures !Present(tipo) ==> c == rooms
  {
    if |rooms| == 0 then []
    else
      assert forall x :: x in rooms <==> x == rooms[0] || x in rooms[1..];
      (if TypeMatches(rooms[0], tipo) then [rooms[0]] else []) + Candidates(rooms[1..], tipo)
  }

  /** `ORDER BY tipo, precio, numero`. */
  predicate RoomOrder(a: RoomRow, b: RoomRow) {
    || StrLt(a.room.tipo, b.room.tipo)
    || (a.room.tipo == b.room.tipo && a.room.precio < b.room.precio)
    || (a.room.tipo == b.room.tipo && a.room.precio == b.room.precio && StrLe(a.room.numero, b.room.numero))
  }

  lemma RoomOrderTotal()
    ensures TotalPreorder(RoomOrder)
  {
    forall a: RoomRow, b: RoomRow
      ensures RoomOrder(a, b) || RoomOrder(b, a)
    {
      StrLtTrichotomy(a.room.tipo, b.room.tipo);
      StrLeTotalOrder(a.room.numero, b.room.numero, b.room.numero);
    }
    forall a: RoomRow, b: RoomRow, c: RoomRow | RoomOrder(a, b) && RoomOrder(b, c)
      ensures RoomOrder(a, c)
    {
      StrLeTotalOrder(a.room.numero, b.room.numero, c.room.numero);
      if StrLt(a.room.tipo, b.room.tipo) && StrLt(b.room.tipo, c.room.tipo) {
        StrLtTransitive(a.room.tipo, b.room.tipo, c.room.tipo);
      }
    }
  }

  /** `row` is a correct line of the listing for those dates and that type filter. */
  predicate RowOk(db: Db, inicio: Date, fin: Date, tipo: Option<string>, row: RoomRow) {
    && row.room in db.rooms
    && TypeMatches(row.room, tipo)
    && (row.disponible <==> !Conflicts(db.reservas, row.room.id, inicio, fin))
  }

  /** The `disponible` column of each candidate, in candidate order. */
  function Tag(db: Db, inicio: Date, fin: Date, tipo: Option<string>, c: seq<Room>): (t: seq<RoomRow>)
    requires forall room :: room in c ==> room in db.rooms && TypeMatches(room, tipo)
    ensures |t| == |c|
    ensures forall k :: 0 <= k < |t| ==> t[k].room == c[k] && RowOk(db, inicio, fin, tipo, t[k])
  {
    if |c| == 0 then []
    else [RoomRow(c[0], !Conflicts(db.reservas, c[0].id, inicio, fin))] + Tag(db, inicio, fin, tipo, c[1..])
  }

  /**
    The rows of an availability search: every room the type filter selects,
    with `disponible` true exactly when no reservation of that room overlaps
    `[inicio, fin)`, sorted by type, price and number.
   */
  function Availability(db: Db, inicio: Date, fin: Date, tipo: Option<string>): (rows: seq<RoomRow>)
    ensures Sorted(rows, RoomOrder)
    ensures |rows| == |Candidates(db.rooms, tipo)|
    ensures forall row :: row in rows ==> RowOk(db, inicio, fin, tipo, row)
    ensures forall room :: room in db.rooms && TypeMatches(room, tipo) ==>
      exists row :: row in rows && row.room == room
  {
    var c := Candidates(db.rooms, tipo);
    var tagged := Tag(db, inicio, fin, tipo, c);
    RoomOrderTotal();
    SortByMembers(tagged, RoomOrder);
    var rows := SortBy(tagged, RoomOrder);
    forall room | room in db.rooms && TypeMatches(room, tipo)
      ensures exists row :: row in rows && row.room == room
    {
      var k :| 0 <= k < |c| && c[k] == room;
      assert tagged[k] in rows;
    }
    rows
  }

  /** A room is listed as available exactly when it can be booked for those dates. */
  lemma AvailableMeansBookable(db: Db, inicio: Date, fin: Date, tipo: Option<string>, row: RoomRow)
    requires row in Availability(db, inicio, fin, tipo)
    ensures row.disponible <==>
      forall r :: r in db.reservas && r.habitacionId == row.room.id ==> !Overlaps(r, inicio, fin)
  {
    assert RowOk(db, inicio, fin, tipo, row);
    if !row.disponible {
      var k :| 0 <= k < |db.reservas| && db.reservas[k].habitacionId == row.room.id
        && Overlaps(db.reservas[k], inicio, fin);
      assert db.reservas[k] in db.reservas;
    }
  }

  /** Without a type every room is listed; with one, only the rooms of that type. */
  lemma TypeFilter(db: Db, inicio: Date, fin: Date, tipo: Option<string>)
    ensures !Present(tipo) ==> |Availability(db, inicio, fin, tipo)| == |db.rooms|
    ensures Present(tipo) ==> forall row :: row in Availability(db, inicio, fin, tipo) ==>
      row.room.tipo == tipo.value
  {
    var rows := Availability(db, inicio, fin, tipo);
    assert forall row :: row in rows ==> RowOk(db, inicio, fin, tipo, row);
  }

  datatype SearchRequest = SearchRequest(fechaInicio: Option<string>, fechaFin: Option<string>,
                                         tipoHabitacion: Option<string>)

  /** `obtenerHabitacionesDisponibles`, served at `GET /api/habitaciones-disponibles`. */
  function HabitacionesDisponibles(db: Db, req: SearchRequest, fails: bool): (r: Response)
    ensures !DatesOk(req.fechaInicio, req.fechaFin) ==> Some(r) == CheckDates(req.fechaInicio, req.fechaFin)
    ensures DatesOk(req.fechaInicio, req.fechaFin) && fails ==> r == Error(500, SearchError)
    ensures DatesOk(req.fechaInicio, req.fechaFin) && !fails ==>
      r == Response(200, Habitaciones(
        Availability(db, req.fechaInicio.value, req.fechaFin.value, req.tipoHabitacion)))
  {
    match CheckDates(req.fechaInicio, req.fechaFin)
    case Some(bad) => bad
    case None =>
      if fails then Error(500, SearchError)
      else Response(200, Habitaciones(Availability(db, req.fechaInicio.value, req.fechaFin.value, req.tipoHabitacion)))
  }

  datatype ReservarRequest = ReservarRequest(
    usuarioId: Option<nat>,
    fechaInicio: Option<string>,
    fechaFin: Option<string>,
    tipoHabitacion: Option<string>,
    habitacionId: Option<nat>,
    accion: Option<string>)

  /** The request books a room: the one case in which `reservar` writes. */
  predicate Books(db: Db, req: ReservarRequest, fails: bool) {
    && DatesOk(req.fechaInicio, req.fechaFin)
    && req.accion == Some("reservar")
    && PresentId(req.habitacionId)
    && !fails
    && !Conflicts(db.reservas, req.habitacionId.value, req.fechaInicio.value, req.fechaFin.value)
  }

  /**
    `reservarHabitacion`, served at `POST /api/reservar`: the dates are
    checked before the action is looked at; 'consultar' searches, 'reservar'
    checks the chosen room for an overlapping stay and only then inserts;
    anything else is "Acción no válida.".
   */
  function Reservar(db: Db, req: ReservarRequest, fails: bool): (res: (Response, Db))
    ensures !DatesOk(req.fechaInicio, req.fechaFin) ==>
      res == (CheckDates(req.fechaInicio, req.fechaFin).value, db)
    ensures DatesOk(req.fechaInicio, req.fechaFin) && req.accion == Some("consultar") ==>
      res == (HabitacionesDisponibles(db, SearchRequest(req.fechaInicio, req.fechaFin, req.tipoHabitacion), fails), db)
    ensures (DatesOk(req.fechaInicio, req.fechaFin)
             && req.accion != Some("consultar") && req.accion != Some("reservar")) ==>
      res == (Error(400, InvalidAction), db)
    ensures DatesOk(req.fechaInicio, req.fechaFin) && req.accion == Some("reservar") ==>
      && (!PresentId(req.habitacionId) ==> res == (Error(400, SelectRoom), db))
      && (PresentId(req.habitacionId) && fails ==> res == (Error(500, BookingError), db))
      && (PresentId(req.habitacionId) && !fails
          && Conflicts(db.reservas, req.habitacionId.value, req.fechaInicio.value, req.fechaFin.value) ==>
          res == (Error(400, AlreadyBooked), db))
    ensures Books(db, req, fails) ==>
      && res.0 == Success(Booked)
      && res.1 == db.(
        reservas := db.reservas + [Reservation(db.nextReservaId, req.usuarioId, req.habitacionId.value,
                                               req.fechaInicio.value, req.fechaFin.value)],
        nextReservaId := db.nextReservaId + 1)
    ensures !Books(db, req, fails) ==> res.1 == db
    ensures Valid(db) ==> Valid(res.1)
  {
    match CheckDates(req.fechaInicio, req.fechaFin)
    case Some(bad) => (bad, db)
    case None =>
      var inicio, fin := req.fechaInicio.value, req.fechaFin.value;
      if req.accion == Some("consultar") then
        (HabitacionesDisponibles(db, SearchRequest(req.fechaInicio, req.fechaFin, req.tipoHabitacion), fails), db)
      else if req.accion == Some("reservar") then
        if !PresentId(req.habitacionId) then (Error(400, SelectRoom), db)
        else if fails then (Error(500, BookingError), db)
        else if Conflicts(db.reservas, req.habitacionId.value, inicio, fin) then (Error(400, AlreadyBooked), db)
        else
          var r := Reservation(db.nextReservaId, req.usuarioId, req.habitacionId.value, inicio, fin);
          var db' := db.(reservas := db.reservas + [r], nextReservaId := db.nextReservaId + 1);
          BookingKeepsValid(db, r);
          (Success(Booked), db')
      else (Error(400, InvalidAction), db)
  }

  /** Appending a fresh, non-empty, non-conflicting stay keeps the state valid. */
  lemma BookingKeepsValid(db: Db, r: Reservation)
    requires r.id == db.nextReservaId && StrLt(r.inicio, r.fin)
    requires !Conflicts(db.reservas, r.habitacionId, r.inicio, r.fin)
    ensures Valid(db) ==> Valid(db.(reservas := db.reservas + [r], nextReservaId := db.nextReservaId + 1))
  {
    if Valid(db) {
      var rs := db.reservas + [r];
      forall a, b | a in rs && b in rs && a.id != b.id && a.habitacionId == b.habitacionId
        ensures !Overlaps(a, b.inicio, b.fin)
      {
        if a == r && b != r {
          var k :| 0 <= k < |db.reservas| && db.reservas[k] == b;
          OverlapSymmetric(a, b);
        } else if b == r && a != r {
          var k :| 0 <= k < |db.reservas| && db.reservas[k] == a;
        }
      }
    }
  }

  /** A stay that begins on the day another one in the same room ends can be booked. */
  lemma BackToBackBookingAccepted(db: Db, req: ReservarRequest)
    requires DatesOk(req.fechaInicio, req.fechaFin) && req.accion == Some("reservar")
    requires PresentId(req.habitacionId)
    requires forall r :: r in db.reservas && r.habitacionId == req.habitacionId.value ==>
      StrLe(r.fin, req.fechaInicio.value)
    ensures Reservar(db, req, false).0 == Success(Booked)
  {
    assert !Conflicts(db.reservas, req.habitacionId.value, req.fechaInicio.value, req.fechaFin.value);
  }

  // ---------------------------------------------------------------------
  // Cancellation and "my reservations"
  // ---------------------------------------------------------------------

  const CancelMissing := "Faltan datos para cancelar la reserva."
  const Cancelled := "Reserva cancelada exitosamente."
  const CancelNotFound := "Reserva no encontrada o no pertenece al usuario."
  const CancelError := "Error al cancelar la reserva. Intente más tarde."

  datatype CancelarRequest = CancelarRequest(reservaId: Option<nat>, usuarioId: Option<nat>)

  /** `DELETE FROM reservas WHERE id = $1 AND usuario_id = $2` selects `r`. */
  predicate OwnedBy(r: Reservation, reservaId: nat, usuarioId: nat) {
    r.id == reservaId && r.usuarioId == Some(usuarioId)
  }

  /**
    `cancelarReserva`, served at `POST /api/cancelar-reserva`: both ids
    are required; only a reservation with that id belonging to that user is
    deleted; 404 when there is none; nothing else changes.
   */
  function Cancelar(db: Db, req: CancelarRequest, fails: bool): (res: (Response, Db))
    ensures !PresentId(req.reservaId) || !PresentId(req.usuarioId) ==> res == (Error(400, CancelMissing), db)
    ensures PresentId(req.reservaId) && PresentId(req.usuarioId) && fails ==> res == (Error(500, CancelError), db)
    ensures PresentId(req.reservaId) && PresentId(req.usuarioId) && !fails ==>
      && (res.0 == Success(Cancelled) <==>
          exists k :: 0 <= k < |db.reservas| && OwnedBy(db.reservas[k], req.reservaId.value, req.usuarioId.value))
      && (res.0 != Success(Cancelled) ==> res == (Error(404, CancelNotFound), db))
      && (forall r :: r in res.1.reservas <==>
          r in db.reservas && !OwnedBy(r, req.reservaId.value, req.usuarioId.value))
    ensures res.1 == db.(reservas := res.1.reservas)
    ensures Valid(db) ==> Valid(res.1)
  {
    if !PresentId(req.reservaId) || !PresentId(req.usuarioId) then (Error(400, CancelMissing), db)
    else if fails then (Error(500, CancelError), db)
    else
      var rid, uid := req.reservaId.value, req.usuarioId.value;
      var kept := FilterReservas(db.reservas, r => !OwnedBy(r, rid, uid));
      if |kept| < |db.reservas| then (Success(Cancelled), db.(reservas := kept))
      else (Error(404, CancelNotFound), db)
  }

  /** No user can cancel a reservation of someone else, and other reservations survive. */
  lemma CancelOnlyOwn(db: Db, req: CancelarRequest, fails: bool, r: Reservation)
    requires r in db.reservas
    requires !(PresentId(req.reservaId) && PresentId(req.usuarioId)
               && r.id == req.reservaId.value && r.usuarioId == Some(req.usuarioId.value))
    ensures r in Cancelar(db, req, fails).1.reservas
  {
  }

  const MissingUser := "Falta el ID de usuario."
  const ListError := "Error al obtener las reservas. Intente más tarde."

  /** The room with the given id, if any: the `JOIN habitaciones h ON r.habitacion_id = h.id`. */
  function RoomById(rooms: seq<Room>, id: nat): (r: Option<Room>)
    ensures r.Some? ==> r.value in rooms && r.value.id == id
    ensures r.None? ==> forall room :: room in rooms ==> room.id != id
  {
    if |rooms| == 0 then None
    else if rooms[0].id == id then Some(rooms[0])
    else RoomById(rooms[1..], id)
  }

  /** A correct line of "my reservations" for that user. */
  predicate ReservaRowOk(db: Db, usuarioId: nat, row: ReservaRow) {
    && row.reserva in db.reservas
    && row.reserva.usuarioId == Some(usuarioId)
    && row.room in db.rooms
    && row.room.id == row.reserva.habitacionId
  }

  /** No reservation is listed twice: the rows carry distinct reservation ids. */
  ghost predicate DistinctReservas(rows: seq<ReservaRow>) {
    forall i, j :: 0 <= i < j < |rows| ==> rows[i].reserva.id != rows[j].reserva.id
  }

  /** The joined rows of one user's reservations, in table order. */
  function UserRows(db: Db, rs: seq<Reservation>, usuarioId: nat): (rows: seq<ReservaRow>)
    requires forall r :: r in rs ==> r in db.reservas
    ensures forall row :: row in rows ==> ReservaRowOk(db, usuarioId, row)
    ensures forall row :: row in rows ==> row.reserva in rs
    ensures forall r :: r in rs && r.usuarioId == Some(usuarioId) && RoomById(db.rooms, r.habitacionId).Some? ==>
      exists row :: row in rows && row.reserva == r
    ensures UniqueReservaIds(rs) ==> DistinctReservas(rows)
  {
    if |rs| == 0 then []
    else
      var rest := UserRows(db, rs[1..], usuarioId);
      var head := if rs[0].usuarioId == Some(usuarioId) then
        match RoomById(db.rooms, rs[0].habitacionId)
        case Some(room) => [ReservaRow(rs[0], room)]
        case None => []
      else [];
      var rows := head + rest;
      forall r | r in rs && r.usuarioId == Some(usuarioId) && RoomById(db.rooms, r.habitacionId).Some?
        ensures exists row :: row in rows && row.reserva == r
      {
        if r != rs[0] {
          assert r in rs[1..];
          var row :| row in rest && row.reserva == r;
          assert row in rows;
        } else {
          assert rows[0].reserva == r;
        }
      }
      ConsRows(rs, head, rest);
      rows
  }

  /** Prepending the head's row, if any, to the tail's rows keeps both facts about reservations. */
  lemma ConsRows(rs: seq<Reservation>, head: seq<ReservaRow>, rest: seq<ReservaRow>)
    requires |rs| > 0
    requires head == [] || (|head| == 1 && head[0].reserva == rs[0])
    requires forall row :: row in rest ==> row.reserva in rs[1..]
    requires UniqueReservaIds(rs[1..]) ==> DistinctReservas(rest)
    ensures forall row :: row in head + rest ==> row.reserva in rs
    ensures UniqueReservaIds(rs) ==> DistinctReservas(head + rest)
  {
    forall row | row in head + rest
      ensures row.reserva in rs
    {
      if row !in head {
        assert row.reserva in rs[1..];
      }
    }
    TailUnique(rs);
    HeadRowFresh(rs, rest);
    if UniqueReservaIds(rs) {
      ConsDistinct(rs[0], head, rest);
    }
  }

  /** A row whose id none of `rest` carries can go in front of distinct rows. */
  lemma ConsDistinct(r: Reservation, head: seq<ReservaRow>, rest: seq<ReservaRow>)
    requires head == [] || (|head| == 1 && head[0].reserva == r)
    requires forall k :: 0 <= k < |rest| ==> rest[k].reserva.id != r.id
    requires DistinctReservas(rest)
    ensures DistinctReservas(head + rest)
  {
    var rows := head + rest;
    forall i, j | 0 <= i < j < |rows|
      ensures rows[i].reserva.id != rows[j].reserva.id
    {
      if i < |head| {
        assert rows[i] == head[0] && rows[j] == rest[j - 1];
      } else {
        assert rows[i] == rest[i - |head|] && rows[j] == rest[j - |head|];
      }
    }
  }

  /** With distinct ids, the ids of the tail are distinct too. */
  lemma TailUnique(rs: seq<Reservation>)
    requires |rs| > 0
    ensures UniqueReservaIds(rs) ==> UniqueReservaIds(rs[1..])
  {
    if UniqueReservaIds(rs) {
      forall i, j | 0 <= i < j < |rs[1..]|
        ensures rs[1..][i].id != rs[1..][j].id
      {
        assert rs[1..][i] == rs[i + 1] && rs[1..][j] == rs[j + 1];
      }
    }
  }

  /** With distinct ids, no row built from the tail shares the head's id. */
  lemma HeadRowFresh(rs: seq<Reservation>, rest: seq<ReservaRow>)
    requires |rs| > 0
    requires forall row :: row in rest ==> row.reserva in rs[1..]
    ensures UniqueReservaIds(rs) ==> forall k :: 0 <= k < |rest| ==> rest[k].reserva.id != rs[0].id
  {
    if UniqueReservaIds(rs) {
      forall k | 0 <= k < |rest|
        ensures rest[k].reserva.id != rs[0].id
      {
        assert rest[k] in rest;
        var m :| 0 <= m < |rs[1..]| && rs[1..][m] == rest[k].reserva;
        assert rs[m + 1] == rest[k].reserva;
      }
    }
  }

  /** Rows with distinct reservation ids hold every row at most once. */
  lemma {:induction false} AtMostOnce(a: seq<ReservaRow>)
    requires DistinctReservas(a)
    ensures forall x :: multiset(a)[x] <= 1
  {
    if |a| > 0 {
      assert a == [a[0]] + a[1..];
      assert DistinctReservas(a[1..]) by {
        forall i, j | 0 <= i < j < |a[1..]|
          ensures a[1..][i].reserva.id != a[1..][j].reserva.id
        {
          assert a[1..][i] == a[i + 1] && a[1..][j] == a[j + 1];
        }
      }
      AtMostOnce(a[1..]);
      assert a[0] !in a[1..] by {
        forall k | 0 <= k < |a[1..]|
          ensures a[1..][k] != a[0]
        {
          assert a[1..][k] == a[k + 1];
        }
      }
    }
  }

  /** A row at two positions occurs at least twice. */
  lemma TwiceCounted(b: seq<ReservaRow>, i: nat, j: nat)
    requires i < j < |b| && b[i] == b[j]
    ensures multiset(b)[b[i]] >= 2
  {
    assert b == b[..j] + b[j..];
    assert b[..j][i] == b[i];
    assert b[j..][0] == b[i];
  }

  /** Reordering rows keeps their reservation ids distinct. */
  lemma PermutationKeepsDistinct(a: seq<ReservaRow>, b: seq<ReservaRow>)
    requires multiset(a) == multiset(b)
    ensures DistinctReservas(a) ==> DistinctReservas(b)
  {
    if DistinctReservas(a) {
      AtMostOnce(a);
      forall i, j | 0 <= i < j < |b|
        ensures b[i].reserva.id != b[j].reserva.id
      {
        if b[i] == b[j] {
          TwiceCounted(b, i, j);
          assert false;
        }
        assert b[i] in multiset(a) && b[j] in multiset(a);
        var p :| 0 <= p < |a| && a[p] == b[i];
        var q :| 0 <= q < |a| && a[q] == b[j];
        assert p != q;
      }
    }
  }

  /** `ORDER BY r.fecha_inicio DESC`. */
  predicate LaterFirst(a: ReservaRow, b: ReservaRow) {
    StrLe(b.reserva.inicio, a.reserva.inicio)
  }

  lemma LaterFirstTotal()
    ensures TotalPreorder(LaterFirst)
  {
    forall a: ReservaRow, b: ReservaRow, c: ReservaRow
      ensures LaterFirst(a, b) || LaterFirst(b, a)
      ensures LaterFirst(a, b) && LaterFirst(b, c) ==> LaterFirst(a, c)
    {
      StrLeTotalOrder(c.reserva.inicio, b.reserva.inicio, a.reserva.inicio);
      StrLeTotalOrder(a.reserva.inicio, b.reserva.inicio, b.reserva.inicio);
    }
  }

  /**
    `misReservas`, served at `GET /api/mis-reservas/:usuario_id`: the
    user's reservations whose room exists, each with its room, latest start
    first.
   */
  function MisReservas(db: Db, usuarioId: Option<nat>, fails: bool): (r: Response)
    ensures usuarioId.None? ==> r == Error(400, MissingUser)
    ensures usuarioId.Some? && fails ==> r == Error(500, ListError)
    ensures usuarioId.Some? && !fails ==> r.status == 200 && r.body.Reservas?
    ensures r.body.Reservas? ==>
      && usuarioId.Some?
      && Sorted(r.body.reservas, LaterFirst)
      && (forall row :: row in r.body.reservas ==> ReservaRowOk(db, usuarioId.value, row))
      && (forall res :: (res in db.reservas && res.usuarioId == usuarioId
                         && RoomById(db.rooms, res.habitacionId).Some?) ==>
          exists row :: row in r.body.reservas && row.reserva == res)
    ensures Valid(db) && r.body.Reservas? ==> DistinctReservas(r.body.reservas)
  {
    match usuarioId
    case None => Error(400, MissingUser)
    case Some(uid) =>
      if fails then Error(500, ListError)
      else
        var rows := UserRows(db, db.reservas, uid);
        LaterFirstTotal();
        SortByMembers(rows, LaterFirst);
        PermutationKeepsDistinct(rows, SortBy(rows, LaterFirst));
        Response(200, Reservas(SortBy(rows, LaterFirst)))
  }
}
